=== FILE: README.md ===
# TcStaticAnalysisLoader: error classification and report building

TcStaticAnalysisLoader builds a TwinCAT solution through the Visual Studio
automation interface. It collects the build's error list and turns each
entry into a `VisualStudioError`. Building one does two things:

- The file name is made relative to the solution directory.
- The raw message is split into a code and a description at the first `:`.

Each error goes into an `ErrorReport`. The report has two ordered lists:
static-analysis errors (code starting with `SA`) and all others. The
process exit code is decided from the static-analysis errors alone. A
gate on the minimum tool version (3.1.4022.0) runs before any of this. The
GitLab code-quality projection maps every error to an `Issue`, then
removes duplicates by fingerprint and keeps the first occurrence. The
fingerprint is the upper-case hex of a digest of the issue's
description, location and severity name.

This project models that slice as pure Dafny functions over immutable
datatypes and proves its properties:

- `Text.dfy`: the .NET string operations the code relies on.
- `VisualStudioError.dfy`: `FileLocation` and the `VisualStudioError` constructor.
- `ErrorReport.dfy`: the report and `AddError`.
- `Location.dfy`, `Severity.dfy`, `Issue.dfy`, `Report.dfy`: the GitLab code-quality classes.
- `Distinct.dfy`: `Enumerable.Distinct` over a key.
- `Traversal.dfy`: building a list with a constructor that may throw.
- `Program.dfy`: the version gate, the error-level filter loop and the exit decision of `Main`.

The following are parameters of the model rather than parts of it:

- the digest (MD5), a function from bytes to 16 bytes;
- `String.GetHashCode`;
- the results of `Path.GetDirectoryName` and `Path.GetFileNameWithoutExtension`;
- `DateTime.Now`;
- the build's error list.

An exception a library call would throw is a `Result.Err` value.

## Model

All source paths are below `TcStaticAnalysisLoader/TcStaticAnalysisLoader/`,
written out in full in the table.

| member | source | states |
|---|---|---|
| VisualStudioErrors.SolutionDirectory | TcStaticAnalysisLoader/TcStaticAnalysisLoader/VisualStudioError.cs:20 | a blank solution path gives the empty directory; any other path gives its directory part |
| VisualStudioErrors.MakeFileLocation | TcStaticAnalysisLoader/TcStaticAnalysisLoader/VisualStudioError.cs:15-29 | project, line and column are copied. If the directory is blank or does not occur in the name, the name is kept. Otherwise the first \|dir\|+1 characters are removed, and the call throws ArgumentOutOfRange when the name is no longer than the directory |
| VisualStudioErrors.FileLocationFailsOnlyOnDirectory | TcStaticAnalysisLoader/TcStaticAnalysisLoader/VisualStudioError.cs:21-23 | the constructor throws exactly when the directory is not blank and the file name equals it |
| VisualStudioErrors.FileLocationRelativePath | TcStaticAnalysisLoader/TcStaticAnalysisLoader/VisualStudioError.cs:21-23 | a file name of the form dir + separator + rest is stored as rest |
| VisualStudioErrors.FileLocationStripsFromStart | TcStaticAnalysisLoader/TcStaticAnalysisLoader/VisualStudioError.cs:21-23 | a match that is not a prefix still cuts from index 0: "xxab.c" with directory "ab" becomes "b.c" |
| VisualStudioErrors.SplitDescription | TcStaticAnalysisLoader/TcStaticAnalysisLoader/VisualStudioError.cs:44-54 | the code never contains `:`. With a `:` present, code + `:` starts the message and the description is the rest after it, trimmed. Without one, the code is empty and the description is the raw text, untrimmed |
| VisualStudioErrors.SplitDescriptionAtFirstColon | TcStaticAnalysisLoader/TcStaticAnalysisLoader/VisualStudioError.cs:44-48 | for the first `:` at index i, the code is the text before i and the description is the trim of the text after i, later colons included |
| VisualStudioErrors.SplitDescriptionLeadingColon | TcStaticAnalysisLoader/TcStaticAnalysisLoader/VisualStudioError.cs:44-48 | a message starting with `:` has an empty code and the trimmed remainder as its description |
| VisualStudioErrors.SplitDescriptionOfCodedMessage | TcStaticAnalysisLoader/TcStaticAnalysisLoader/VisualStudioError.cs:44-48 | splitting code + ": " + text gives back code and text when the code has no `:` and the text has no white space at its ends |
| VisualStudioErrors.MakeError | TcStaticAnalysisLoader/TcStaticAnalysisLoader/VisualStudioError.cs:40-55 | succeeds exactly when the location can be built. The level is the raw integer, the location is the `FileLocation` result, and code and description come from the split |
| Text.Trim | TcStaticAnalysisLoader/TcStaticAnalysisLoader/VisualStudioError.cs:48 | the result is no longer than the input and neither starts nor ends with white space |
| Text.TrimIsSlice | TcStaticAnalysisLoader/TcStaticAnalysisLoader/VisualStudioError.cs:48 | the trimmed text is a slice of the input with only white space on either side |
| Text.TrimUnique | TcStaticAnalysisLoader/TcStaticAnalysisLoader/VisualStudioError.cs:48 | conversely, any slice with only white space on either side and none at its own ends is the trim, so the trim is determined by those properties |
| Text.TrimIdempotent | TcStaticAnalysisLoader/TcStaticAnalysisLoader/VisualStudioError.cs:48 | trimming twice is trimming once |
| Text.TrimOfTrimmed | TcStaticAnalysisLoader/TcStaticAnalysisLoader/VisualStudioError.cs:48 | a text without white space at its ends is its own trim |
| Text.TrimLeadingWhiteSpace | TcStaticAnalysisLoader/TcStaticAnalysisLoader/VisualStudioError.cs:48 | a leading white-space character does not change the trim |
| Text.TrimBlank | TcStaticAnalysisLoader/TcStaticAnalysisLoader/VisualStudioError.cs:48 | an all-white-space text trims to the empty string |
| Text.Split | TcStaticAnalysisLoader/TcStaticAnalysisLoader/VisualStudioError.cs:44 | at least one piece, no piece contains the separator, and joining the pieces with it gives the input back |
| Text.SplitFirstPiece | TcStaticAnalysisLoader/TcStaticAnalysisLoader/VisualStudioError.cs:44-45 | there is more than one piece exactly when the separator occurs; the first piece is the text before the first separator |
| Text.IsBlank | TcStaticAnalysisLoader/TcStaticAnalysisLoader/VisualStudioError.cs:20-21 | `string.IsNullOrWhiteSpace` for a non-null string: every character is white space, which includes the empty string |
| Text.Contains | TcStaticAnalysisLoader/TcStaticAnalysisLoader/VisualStudioError.cs:21 | ordinal `Contains`: the text occurs at some index of the string |
| Text.RemovePrefix | TcStaticAnalysisLoader/TcStaticAnalysisLoader/VisualStudioError.cs:23 | succeeds exactly when the count is within the string; the result is what follows the removed prefix |
| Text.IntToDecimal | TcStaticAnalysisLoader/TcStaticAnalysisLoader/GitlabCI/CodeQuality/Location.cs:24 | at least one character; a leading `-` exactly for negative numbers; otherwise only decimal digits |
| Text.IntToDecimalRoundTrip | TcStaticAnalysisLoader/TcStaticAnalysisLoader/GitlabCI/CodeQuality/Location.cs:24 | the decimal rendering of an integer reads back as that integer |
| Text.IntToDecimalInjective | TcStaticAnalysisLoader/TcStaticAnalysisLoader/GitlabCI/CodeQuality/Location.cs:24 | different integers render differently |
| ErrorReports.IsStaticAnalysisCode | TcStaticAnalysisLoader/TcStaticAnalysisLoader/ErrorReport.cs:25 | a code is a static-analysis code exactly when "SA" is a prefix of it, compared ordinally |
| ErrorReports.StaticAnalysisCodeExamples | TcStaticAnalysisLoader/TcStaticAnalysisLoader/ErrorReport.cs:25 | the prefix test is exact and case-sensitive: "SA0007" qualifies; "sa0001", "" and "CS0219" do not |
| ErrorReports.NewReport | TcStaticAnalysisLoader/TcStaticAnalysisLoader/ErrorReport.cs:14-21 | a new report has both lists empty and keeps the names and time stamp it was given |
| ErrorReports.AddError | TcStaticAnalysisLoader/TcStaticAnalysisLoader/ErrorReport.cs:23-31 | the static-analysis list grows exactly when the code starts with "SA". The error is appended at the end of its list. The other list, the names and the time stamp are unchanged, and the size grows by one |
| ErrorReports.Bucket | TcStaticAnalysisLoader/TcStaticAnalysisLoader/ErrorReport.cs:23-31 | the errors of one class are exactly the input's errors of that class |
| ErrorReports.BucketsPartition | TcStaticAnalysisLoader/TcStaticAnalysisLoader/ErrorReport.cs:23-31 | every error lands in exactly one of the two classes |
| ErrorReports.AddErrorsBuckets | TcStaticAnalysisLoader/TcStaticAnalysisLoader/ErrorReport.cs:23-31 | after a series of `AddError` calls, each list is its old contents followed by the added errors of its class, in call order; identity is unchanged |
| ErrorReports.NewReportCountsCalls | TcStaticAnalysisLoader/TcStaticAnalysisLoader/ErrorReport.cs:14-31 | starting from a new report, the two list lengths add up to the number of `AddError` calls |
| Locations.LocationString | TcStaticAnalysisLoader/TcStaticAnalysisLoader/GitlabCI/CodeQuality/Location.cs:22-25 | the path is a prefix, the rest is the decimal rendering of the first line, and the result is longer than the path |
| Locations.LocationStringSplits | TcStaticAnalysisLoader/TcStaticAnalysisLoader/GitlabCI/CodeQuality/Location.cs:24 | what follows the path reads back as the line number |
| Locations.DefaultLocationString | TcStaticAnalysisLoader/TcStaticAnalysisLoader/GitlabCI/CodeQuality/Location.cs:17-24 | a location with no properties set renders as "0" |
| Locations.LocationStringNotInjective | TcStaticAnalysisLoader/TcStaticAnalysisLoader/GitlabCI/CodeQuality/Location.cs:24 | ("a1", 2) and ("a", 12) are different locations that both render as "a12" |
| Severities.OrdinalBijection | TcStaticAnalysisLoader/TcStaticAnalysisLoader/GitlabCI/CodeQuality/Severity.cs:3-19 | exactly the values 0 to 4 are severities, each a different one, in declaration order |
| Severities.DefaultIsInfo | TcStaticAnalysisLoader/TcStaticAnalysisLoader/GitlabCI/CodeQuality/Severity.cs:6 | the unset severity is Info, the member with value 0 |
| Severities.Name | TcStaticAnalysisLoader/TcStaticAnalysisLoader/GitlabCI/CodeQuality/Issue.cs:56 | the enum member name ("Info", "Minor", "Major", "Critical", "Blocker") that the fingerprint key interpolates |
| Severities.Token | TcStaticAnalysisLoader/TcStaticAnalysisLoader/GitlabCI/CodeQuality/Severity.cs:5-18 | the `EnumMember` wire value of each severity ("info", "minor", "major", "critical", "blocker") |
| Severities.TokenIsLowerCaseName | TcStaticAnalysisLoader/TcStaticAnalysisLoader/GitlabCI/CodeQuality/Severity.cs:5-18 | each wire token is the enum name in lower case |
| Severities.TokenRoundTrip | TcStaticAnalysisLoader/TcStaticAnalysisLoader/GitlabCI/CodeQuality/Severity.cs:5-18 | a token reads back as its severity, and every token that reads back is some severity's token |
| Severities.TokenInjective | TcStaticAnalysisLoader/TcStaticAnalysisLoader/GitlabCI/CodeQuality/Severity.cs:5-18 | different severities have different tokens |
| Severities.NameIsNotToken | TcStaticAnalysisLoader/TcStaticAnalysisLoader/GitlabCI/CodeQuality/Severity.cs:5-18 | no enum name equals its token |
| Issues.FingerprintKey | TcStaticAnalysisLoader/TcStaticAnalysisLoader/GitlabCI/CodeQuality/Issue.cs:56 | the hashed text is the description, the location rendering and the severity enum name, joined with no delimiter |
| Issues.DefaultIssueKey | TcStaticAnalysisLoader/TcStaticAnalysisLoader/GitlabCI/CodeQuality/Issue.cs:56 | an issue with no properties set hashes the text "0Info" |
| Issues.FingerprintKeyParts | TcStaticAnalysisLoader/TcStaticAnalysisLoader/GitlabCI/CodeQuality/Issue.cs:56 | the key is the description, then the location rendering, then the severity name |
| Issues.AsciiByte | TcStaticAnalysisLoader/TcStaticAnalysisLoader/GitlabCI/CodeQuality/Issue.cs:58 | a character below 128 encodes as itself; any other character encodes as `?` (63) |
| Issues.AsciiBytes | TcStaticAnalysisLoader/TcStaticAnalysisLoader/GitlabCI/CodeQuality/Issue.cs:58 | one byte per UTF-16 code unit, so at least one per character. Text inside the Basic Multilingual Plane gives exactly one byte per character, each that character's byte; a character outside it is a surrogate pair and gives two `?`, so the encoding is longer than the text |
| Issues.AsciiBytesExamples | TcStaticAnalysisLoader/TcStaticAnalysisLoader/GitlabCI/CodeQuality/Issue.cs:58 | "a\U{1F600}b" encodes as 97, 63, 63, 98 and "a\U{E9}b" as 97, 63, 98 |
| Issues.AsciiBytesAppend | TcStaticAnalysisLoader/TcStaticAnalysisLoader/GitlabCI/CodeQuality/Issue.cs:58 | the encoding of a concatenation is the concatenation of the encodings |
| Issues.AsciiRoundTrip | TcStaticAnalysisLoader/TcStaticAnalysisLoader/GitlabCI/CodeQuality/Issue.cs:58 | ASCII text decodes back from its bytes |
| Issues.AsciiCollision | TcStaticAnalysisLoader/TcStaticAnalysisLoader/GitlabCI/CodeQuality/Issue.cs:58 | texts that differ only in which non-ASCII character stands at one place encode alike, when both characters have the same UTF-16 width |
| Issues.ToHex | TcStaticAnalysisLoader/TcStaticAnalysisLoader/GitlabCI/CodeQuality/Issue.cs:61 | two characters per byte, each 0-9 or A-F |
| Issues.HexRoundTrip | TcStaticAnalysisLoader/TcStaticAnalysisLoader/GitlabCI/CodeQuality/Issue.cs:61 | hex decoding undoes hex encoding |
| Issues.HexInjective | TcStaticAnalysisLoader/TcStaticAnalysisLoader/GitlabCI/CodeQuality/Issue.cs:61 | equal hex strings come from equal bytes |
| Issues.Fingerprint | TcStaticAnalysisLoader/TcStaticAnalysisLoader/GitlabCI/CodeQuality/Issue.cs:54-62 | 32 characters, each 0-9 or A-F |
| Issues.FingerprintDependsOnlyOnKey | TcStaticAnalysisLoader/TcStaticAnalysisLoader/GitlabCI/CodeQuality/Issue.cs:54-62 | issues with the same key have the same fingerprint |
| Issues.FingerprintsAgreeIffDigestsAgree | TcStaticAnalysisLoader/TcStaticAnalysisLoader/GitlabCI/CodeQuality/Issue.cs:54-62 | two fingerprints are equal exactly when the digests of the encoded keys are equal |
| Issues.FingerprintFieldShift | TcStaticAnalysisLoader/TcStaticAnalysisLoader/GitlabCI/CodeQuality/Issue.cs:56 | moving text from the end of the description to the front of the path gives a different issue with the same fingerprint |
| Issues.FingerprintNonAsciiCollision | TcStaticAnalysisLoader/TcStaticAnalysisLoader/GitlabCI/CodeQuality/Issue.cs:56-58 | descriptions that differ only in which non-ASCII character stands at one place give the same fingerprint, when both characters have the same UTF-16 width |
| Issues.FingerprintKeyUsesName | TcStaticAnalysisLoader/TcStaticAnalysisLoader/GitlabCI/CodeQuality/Issue.cs:56 | the key ends in the enum name "Critical", not the token "critical" |
| Issues.IssueEquals | TcStaticAnalysisLoader/TcStaticAnalysisLoader/GitlabCI/CodeQuality/Issue.cs:35-47 | false for null; otherwise true exactly when the fingerprints agree |
| Issues.IssueEqualsIsEquivalence | TcStaticAnalysisLoader/TcStaticAnalysisLoader/GitlabCI/CodeQuality/Issue.cs:35-47 | on issues, `Equals` is reflexive, symmetric and transitive |
| Issues.HashCode | TcStaticAnalysisLoader/TcStaticAnalysisLoader/GitlabCI/CodeQuality/Issue.cs:49-52 | the hash code is the string hash of the fingerprint, so it depends on nothing else about the issue |
| Issues.EqualIssuesHashEqually | TcStaticAnalysisLoader/TcStaticAnalysisLoader/GitlabCI/CodeQuality/Issue.cs:49-52 | equal issues have equal hash codes |
| CodeQualityReport.SeverityFor | TcStaticAnalysisLoader/TcStaticAnalysisLoader/GitlabCI/CodeQuality/Report.cs:39-50 | Low becomes Minor, Medium becomes Major and High becomes Critical; any other level keeps the default |
| CodeQualityReport.SeverityForRange | TcStaticAnalysisLoader/TcStaticAnalysisLoader/GitlabCI/CodeQuality/Report.cs:39-50 | Blocker is never produced; Info is produced exactly for levels other than 1, 2 and 4 |
| CodeQualityReport.IssueFromError | TcStaticAnalysisLoader/TcStaticAnalysisLoader/GitlabCI/CodeQuality/Report.cs:25-38 | description is code + ": " + description, the path is the file name, the first line is the line, and the severity is mapped |
| CodeQualityReport.IssueIgnoresColumnAndProject | TcStaticAnalysisLoader/TcStaticAnalysisLoader/GitlabCI/CodeQuality/Report.cs:30-37 | the column and the project do not affect the issue |
| CodeQualityReport.IssueWithoutCode | TcStaticAnalysisLoader/TcStaticAnalysisLoader/GitlabCI/CodeQuality/Report.cs:29 | an empty code gives a description starting with ": " |
| CodeQualityReport.IssuesOf | TcStaticAnalysisLoader/TcStaticAnalysisLoader/GitlabCI/CodeQuality/Report.cs:13-16 | one issue per error, in order |
| CodeQualityReport.CollectIssues | TcStaticAnalysisLoader/TcStaticAnalysisLoader/GitlabCI/CodeQuality/Report.cs:12-20 | the static-analysis errors' issues come first, then the other errors' issues, each in list order |
| CodeQualityReport.ErrorIssueCollected | TcStaticAnalysisLoader/TcStaticAnalysisLoader/GitlabCI/CodeQuality/Report.cs:12-20 | the issue of every error in either list of the report is among the collected issues |
| CodeQualityReport.GitLabReport | TcStaticAnalysisLoader/TcStaticAnalysisLoader/GitlabCI/CodeQuality/Report.cs:10-23 | the report has no more entries than there are errors |
| CodeQualityReport.GitLabReportByDistinct | TcStaticAnalysisLoader/TcStaticAnalysisLoader/GitlabCI/CodeQuality/Report.cs:21 | the single pass with a set of seen fingerprints computes the first-occurrence list |
| CodeQualityReport.GitLabReportProperties | TcStaticAnalysisLoader/TcStaticAnalysisLoader/GitlabCI/CodeQuality/Report.cs:21 | no two entries share a fingerprint, every error's fingerprint is kept, and every entry is an issue of some error |
| CodeQualityReport.GitLabReportKeepsFirst | TcStaticAnalysisLoader/TcStaticAnalysisLoader/GitlabCI/CodeQuality/Report.cs:21 | each entry is the first issue with its fingerprint in collection order |
| CodeQualityReport.DuplicateErrorsReportedOnce | TcStaticAnalysisLoader/TcStaticAnalysisLoader/GitlabCI/CodeQuality/Report.cs:12-21 | for any error in the report, exactly one entry carries its fingerprint |
| Distinctness.KeepFirst | TcStaticAnalysisLoader/TcStaticAnalysisLoader/GitlabCI/CodeQuality/Report.cs:21 | the reference that `Enumerable.Distinct` is proved equal to: for each key, its first occurrence, in input order, and never more elements than the input |
| Distinctness.KeepFirstProperties | TcStaticAnalysisLoader/TcStaticAnalysisLoader/GitlabCI/CodeQuality/Report.cs:21 | kept elements come from the input, every key survives, and no key is kept twice |
| Distinctness.KeepFirstKeepsFirst | TcStaticAnalysisLoader/TcStaticAnalysisLoader/GitlabCI/CodeQuality/Report.cs:21 | each kept element is the first occurrence of its key |
| Distinctness.KeepFirstOfUnique | TcStaticAnalysisLoader/TcStaticAnalysisLoader/GitlabCI/CodeQuality/Report.cs:21 | without repeated keys nothing is removed |
| Distinctness.KeepFirstIdempotent | TcStaticAnalysisLoader/TcStaticAnalysisLoader/GitlabCI/CodeQuality/Report.cs:21 | removing duplicates twice is removing them once |
| Distinctness.Distinct | TcStaticAnalysisLoader/TcStaticAnalysisLoader/GitlabCI/CodeQuality/Report.cs:21 | the loop with a set of seen keys yields exactly the first occurrence of each key, in input order |
| Program.ExitCodeFor | TcStaticAnalysisLoader/TcStaticAnalysisLoader/Program.cs:130-135 | error exactly when some static-analysis error is High; unstable exactly when none is High and some is Medium; success otherwise |
| Program.ExitCodeIsWorstSeverity | TcStaticAnalysisLoader/TcStaticAnalysisLoader/Program.cs:130-135 | the two scans decide what a scan for the worst level decides |
| Program.WorstRankReaches | TcStaticAnalysisLoader/TcStaticAnalysisLoader/Program.cs:130-135 | the worst rank reaches n exactly when some error's level has rank n or more |
| Program.ExitCodeOrderIndependent | TcStaticAnalysisLoader/TcStaticAnalysisLoader/Program.cs:130-135 | lists holding the same errors get the same exit code, whatever their order and however often each error occurs |
| Program.OtherErrorsDoNotAffectExitCode | TcStaticAnalysisLoader/TcStaticAnalysisLoader/Program.cs:113-135 | adding an error without the "SA" prefix never changes the exit code |
| Program.ExitCodeScenarios | TcStaticAnalysisLoader/TcStaticAnalysisLoader/Program.cs:130-135 | {High} and {Medium, High} fail, {Medium} is unstable, and {} and {Low} succeed |
| Program.MakeVersion | TcStaticAnalysisLoader/TcStaticAnalysisLoader/Program.cs:73 | succeeds exactly for 2 to 4 components; an absent build or revision is -1 |
| Program.CompareVersions | TcStaticAnalysisLoader/TcStaticAnalysisLoader/Program.cs:74 | the result is -1, 0 or 1, and 0 exactly for equal versions |
| Program.CompareVersionsIsLexicographic | TcStaticAnalysisLoader/TcStaticAnalysisLoader/Program.cs:74 | a negative result means exactly lexicographic precedence on the four components; swapping the arguments negates the result |
| Program.CompareVersionsTransitive | TcStaticAnalysisLoader/TcStaticAnalysisLoader/Program.cs:74 | the ordering is transitive |
| Program.PassesVersionGate | TcStaticAnalysisLoader/TcStaticAnalysisLoader/Program.cs:74-75 | the run continues exactly when the detected version does not precede 3.1.4022.0 lexicographically on (major, minor, build, revision) |
| Program.VersionGateExamples | TcStaticAnalysisLoader/TcStaticAnalysisLoader/Program.cs:69-80 | 3.1.4024.0 and 3.1.4022.0 pass, 3.1.4021.5 fails, and 3.1.4022 (revision absent) fails |
| Program.Forwarded | TcStaticAnalysisLoader/TcStaticAnalysisLoader/Program.cs:104-110 | exactly the items whose level is not Low are kept |
| Program.Collect | TcStaticAnalysisLoader/TcStaticAnalysisLoader/Program.cs:104-110 | the collection loop as a whole: keep the items that are not Low, build an error from each in order, stop at the first exception, and otherwise add all of them to the report |
| Program.CollectErrors | TcStaticAnalysisLoader/TcStaticAnalysisLoader/Program.cs:102-110 | the index loop 1..Count adds, in order, one error per item that is not Low; the report grows by that many, and a throwing constructor ends the loop |
| Program.CollectStepFails | TcStaticAnalysisLoader/TcStaticAnalysisLoader/Program.cs:106-108 | an item that is not Low and whose constructor throws makes the whole collection throw that exception |
| Program.CollectCounts | TcStaticAnalysisLoader/TcStaticAnalysisLoader/Program.cs:104-110 | a successful collection adds one error per item that is not Low |
| Program.CollectFailsIffSomeItemFails | TcStaticAnalysisLoader/TcStaticAnalysisLoader/Program.cs:104-110 | the collection throws exactly when some item that is not Low cannot be turned into an error |
| Program.BuiltErrorsAreNotLow | TcStaticAnalysisLoader/TcStaticAnalysisLoader/Program.cs:104-110 | no collected error has level Low |
| Program.CollectedReportContents | TcStaticAnalysisLoader/TcStaticAnalysisLoader/Program.cs:102-110 | starting from an empty report, the lists hold exactly the forwarded errors split by the prefix, in error-list order, and none is Low |
| Program.RunMain | TcStaticAnalysisLoader/TcStaticAnalysisLoader/Program.cs:69-135 | a version string with the wrong number of components crashes with its exception. After that check, any crash carries the exception the collection throws. A version below the minimum exits with the error code and collects nothing. A run with a report has passed the gate. Its report is the collection of the error list into a new report with the given names and time stamp, and it exits with the code decided from that report's static-analysis errors |
| Program.RunMainOutcome | TcStaticAnalysisLoader/TcStaticAnalysisLoader/Program.cs:102-135 | once the gate has passed, the run crashes exactly when some item that is not Low cannot be turned into an error. Otherwise the report holds one error per such item, and the run exits with the error code exactly when some item is High with an "SA" code, and unstable exactly when none is and some item is Medium with an "SA" code |
| Program.BuiltStaticAtLevel | TcStaticAnalysisLoader/TcStaticAnalysisLoader/Program.cs:104-113 | the collected static-analysis errors include one at a level other than Low exactly when some error-list item has that level and a code starting with "SA" |
| Program.GateFailureIgnoresBuild | TcStaticAnalysisLoader/TcStaticAnalysisLoader/Program.cs:69-80 | after a failed gate the outcome does not depend on the error list |
| Traversal.TraverseOkIffAllOk | TcStaticAnalysisLoader/TcStaticAnalysisLoader/Program.cs:104-110 | building a list succeeds exactly when every element can be built |
| Traversal.TraverseAppendFails | TcStaticAnalysisLoader/TcStaticAnalysisLoader/Program.cs:104-110 | once an element has thrown, later elements do not change the outcome |

## Left out

- The COM/DTE automation and `MessageFilter` (Program.cs:82-121, 138-167) are foreign host calls. The error list is an input sequence of items instead.
- The regular expressions that read the tool and IDE versions from the project files (Program.cs:169-193) are left out, because they are file I/O and regex library behaviour. So is the `Groups.Count < 2` check: it fires when nothing matches, because a failed match has a single group, and the run then exits with the error code when no version string is found (Program.cs:173-177, 186-190).
- Parsing the version string (Program.cs:72-73) is left out, because `System.Version` string parsing is library behaviour. The model starts from the already-parsed numeric components (`Program.MakeVersion`). The `Constants` class is not part of this model, so the minimum version 3.1.4022.0 is taken from the comment at Program.cs:69.
- The integer values of the exit codes live in `Constants`, which is not part of this model. The three outcomes are an abstract datatype.
- The COM level `vsBuildErrorLevelLow` is not in the source. It is taken to be 1, the same as `VisualStudioErrorLevel.Low`.
- MD5 itself is a function parameter from bytes to 16 bytes. `String.GetHashCode` is a parameter too, because it differs between processes.
- JSON serialisation (ErrorReport.cs:33-36, Report.cs:22) is left out. The model stops at the issue and error sequences.
- `Path.GetDirectoryName` and `Path.GetFileNameWithoutExtension` are left out; their results are inputs. A null directory is passed as the empty string, which `IsNullOrWhiteSpace` treats the same way.
- `DateTime.Now` is left out because it is nondeterministic; the time stamp is an input.
- ErrorReports.IsStaticAnalysisCode: the `StartsWith("SA")` test is culture-sensitive in the source. It is modelled as an ordinal prefix test.
- File I/O, logging, `Environment.Exit` and command-line parsing (Options.cs, Program.cs:39-64, 112-127) are left out. So is writing the native report.
- The `ReportFormat` option is left out because `Main` never calls the GitLab `Report`. `CodeQualityReport.GitLabReport` stands alone.
- Null strings are not modelled. Every string is a sequence of Unicode scalar values.
- VisualStudioErrors.MakeFileLocation: the cut of \|dir\|+1 characters counts Unicode scalar values, while .NET's `Length` and `Remove(0, n)` count UTF-16 code units. The two differ when the name or the directory holds a character outside the Basic Multilingual Plane. For example, "\U{1F600}ab" with directory "b" gives "b" here, but .NET removes two code units, which are the surrogate pair, and gives "ab". A cut inside a surrogate pair cannot be expressed at all. The throw condition is unaffected: it still fires exactly when the name equals the directory.
- Text.IntToDecimal: the line number is rendered with `-` as the negative sign. String interpolation uses the current culture, whose negative sign may be another character; this matters only for a negative line number.
- Integers are unbounded: the 32-bit width of `int` line and column numbers is not modelled.

### Where the code and its description differ, the model follows the code

- The split happens at any first `:`, even one at index 0; no character has to come before it.
- The description is trimmed of all leading and trailing white space, not just one space after the colon.
- A version with the build or revision absent stores -1 for that component and compares below one where it is 0, instead of being padded with zeros. So 3.1.4022 fails the gate.

=== FILE: Distinct.dfy ===
/**
 `Enumerable.Distinct` over an equality that compares one derived key (for
 issues: the fingerprint): the first element with each key is kept, later
 ones are dropped, and the order of first appearance is preserved.
 */
module Distinctness {

  /** No earlier element of `xs` has the key of `xs[i]`. */
  predicate IsFirstOccurrence<T(==), K(==)>(key: T -> K, xs: seq<T>, i: int)
    requires 0 <= i < |xs|
  {
    forall j :: 0 <= j < i ==> key(xs[j]) != key(xs[i])
  }

  /** The first occurrence of each key, in input order. */
  function KeepFirst<T(==), K(==)>(key: T -> K, xs: seq<T>): (r: seq<T>)
    ensures |r| <= |xs|
  {
    if xs == [] then []
    else
      var n := |xs| - 1;
      KeepFirst(key, xs[..n]) + (if IsFirstOccurrence(key, xs, n) then [xs[n]] else [])
  }

  /** The keys of the elements of `xs`. */
  function Keys<T(==), K(==)>(key: T -> K, xs: seq<T>): set<K> {
    set x | x in xs :: key(x)
  }

  /** No two elements of `xs` share a key. */
  predicate KeysUnique<T(==), K(==)>(key: T -> K, xs: seq<T>) {
    forall a, b :: 0 <= a < b < |xs| ==> key(xs[a]) != key(xs[b])
  }

  lemma KeysAppend<T, K>(key: T -> K, xs: seq<T>, x: T)
    ensures Keys(key, xs + [x]) == Keys(key, xs) + {key(x)}
  {
    assert forall y :: y in xs + [x] <==> y in xs || y == x;
  }

  /** An element is a first occurrence exactly when its key was not seen before it. */
  lemma FirstOccurrenceIffUnseen<T, K>(key: T -> K, xs: seq<T>, i: int)
    requires 0 <= i < |xs|
    ensures IsFirstOccurrence(key, xs, i) <==> key(xs[i]) !in Keys(key, xs[..i])
  {
    if !IsFirstOccurrence(key, xs, i) {
      var j :| 0 <= j < i && key(xs[j]) == key(xs[i]);
      assert xs[..i][j] == xs[j];
    }
  }

  /**
   The elements kept are elements of the input; every key of the input
   survives; no key is kept twice.
   */
  lemma {:induction false} KeepFirstProperties<T, K>(key: T -> K, xs: seq<T>)
    ensures forall y :: y in KeepFirst(key, xs) ==> y in xs
    ensures Keys(key, KeepFirst(key, xs)) == Keys(key, xs)
    ensures KeysUnique(key, KeepFirst(key, xs))
  {
    if xs != [] {
      var n := |xs| - 1;
      var prefix := xs[..n];
      var kept := KeepFirst(key, prefix);
      KeepFirstProperties(key, prefix);
      assert xs == prefix + [xs[n]];
      KeysAppend(key, prefix, xs[n]);
      FirstOccurrenceIffUnseen(key, xs, n);
      if IsFirstOccurrence(key, xs, n) {
        KeysAppend(key, kept, xs[n]);
        var r := kept + [xs[n]];
        forall a, b | 0 <= a < b < |r| ensures key(r[a]) != key(r[b]) {
          if b == |kept| {
            assert r[a] in kept;
          } else {
            assert r[a] == kept[a] && r[b] == kept[b];
          }
        }
      } else {
        assert KeepFirst(key, xs) == kept;
      }
    }
  }

  /** Every kept element is the first occurrence of its key in the input. */
  lemma {:induction false} KeepFirstKeepsFirst<T, K>(key: T -> K, xs: seq<T>, k: int)
    requires 0 <= k < |KeepFirst(key, xs)|
    ensures exists i | 0 <= i < |xs| :: xs[i] == KeepFirst(key, xs)[k] && IsFirstOccurrence(key, xs, i)
  {
    var n := |xs| - 1;
    var prefix := xs[..n];
    var kept := KeepFirst(key, prefix);
    if k < |kept| {
      KeepFirstKeepsFirst(key, prefix, k);
      var i :| 0 <= i < |prefix| && prefix[i] == kept[k] && IsFirstOccurrence(key, prefix, i);
      assert xs[i] == prefix[i];
      assert KeepFirst(key, xs)[k] == kept[k];
      assert IsFirstOccurrence(key, xs, i) by {
        forall j | 0 <= j < i ensures key(xs[j]) != key(xs[i]) {
          assert xs[j] == prefix[j];
        }
      }
    } else {
      assert KeepFirst(key, xs)[k] == xs[n];
    }
  }

  /** Without repeated keys nothing is removed. */
  lemma {:induction false} KeepFirstOfUnique<T, K>(key: T -> K, xs: seq<T>)
    requires KeysUnique(key, xs)
    ensures KeepFirst(key, xs) == xs
  {
    if xs != [] {
      var n := |xs| - 1;
      assert KeysUnique(key, xs[..n]);
      KeepFirstOfUnique(key, xs[..n]);
      assert IsFirstOccurrence(key, xs, n);
      assert xs == xs[..n] + [xs[n]];
    }
  }

  /** Deduplicating twice is deduplicating once. */
  lemma KeepFirstIdempotent<T, K>(key: T -> K, xs: seq<T>)
    ensures KeepFirst(key, KeepFirst(key, xs)) == KeepFirst(key, xs)
  {
    KeepFirstProperties(key, xs);
    KeepFirstOfUnique(key, KeepFirst(key, xs));
  }

  /**
   The library algorithm: walk the input once with a set of the keys seen,
   yielding an element when its key is new.
   */
  method Distinct<T(==), K(==)>(key: T -> K, xs: seq<T>) returns (out: seq<T>)
    ensures out == KeepFirst(key, xs)
  {
    var seen: set<K> := {};
    out := [];
    for k := 0 to |xs|
      invariant out == KeepFirst(key, xs[..k])
      invariant seen == Keys(key, xs[..k])
    {
      var prefix := xs[..k + 1];
      assert prefix[..k] == xs[..k];
      assert prefix == xs[..k] + [xs[k]];
      FirstOccurrenceIffUnseen(key, prefix, k);
      KeysAppend(key, xs[..k], xs[k]);
      if key(xs[k]) !in seen {
        out := out + [xs[k]];
        seen := seen + {key(xs[k])};
      }
    }
    assert xs[..|xs|] == xs;
  }
}

=== FILE: ErrorReport.dfy ===
/**
 The native report of one build run: the solution and project names, the
 time it was created, and the collected errors in two append-only lists,
 static-analysis errors (code starting with "SA") and all others.
 */
module ErrorReports {
  import opened VisualStudioErrors

  /**
   The names are the file names without extension (computed by the caller);
   the time stamp is the creation time, taken as an input.
   */
  datatype ErrorReport = ErrorReport(
    solutionName: string,
    projectName: string,
    timeStamp: int,
    staticAnalyzerErrors: seq<VisualStudioError>,
    otherErrors: seq<VisualStudioError>)

  /** Static-analysis codes start with "SA": an ordinal, case-sensitive prefix test. */
  predicate IsStaticAnalysisCode(code: string) {
    "SA" <= code
  }

  /** The prefix test is exact: lower case and the empty code do not qualify. */
  lemma StaticAnalysisCodeExamples()
    ensures IsStaticAnalysisCode("SA0007")
    ensures !IsStaticAnalysisCode("sa0001")
    ensures !IsStaticAnalysisCode("")
    ensures !IsStaticAnalysisCode("CS0219")
  {
    assert "sa0001"[0] != 'S';
  }

  /** The constructor: both lists start out empty. */
  function NewReport(solutionName: string, projectName: string, timeStamp: int): (r: ErrorReport)
    ensures r.staticAnalyzerErrors == [] && r.otherErrors == []
    ensures r.solutionName == solutionName && r.projectName == projectName && r.timeStamp == timeStamp
  {
    ErrorReport(solutionName, projectName, timeStamp, [], [])
  }

  /** Total number of errors held. */
  function Size(r: ErrorReport): nat {
    |r.staticAnalyzerErrors| + |r.otherErrors|
  }

  /** The same names and time stamp. */
  predicate SameIdentity(r: ErrorReport, r': ErrorReport) {
    r.solutionName == r'.solutionName && r.projectName == r'.projectName && r.timeStamp == r'.timeStamp
  }

  /**
   `AddError`: the error goes to the end of the static-analysis list exactly
   when its code starts with "SA", and to the end of the other list
   otherwise; the other list and the identity stay as they were.
   */
  function AddError(r: ErrorReport, e: VisualStudioError): (r': ErrorReport)
    ensures SameIdentity(r, r')
    ensures Size(r') == Size(r) + 1
    ensures IsStaticAnalysisCode(e.code) <==> |r'.staticAnalyzerErrors| == |r.staticAnalyzerErrors| + 1
    ensures IsStaticAnalysisCode(e.code) ==>
              r'.staticAnalyzerErrors == r.staticAnalyzerErrors + [e] && r'.otherErrors == r.otherErrors
    ensures !IsStaticAnalysisCode(e.code) ==>
              r'.otherErrors == r.otherErrors + [e] && r'.staticAnalyzerErrors == r.staticAnalyzerErrors
  {
    if IsStaticAnalysisCode(e.code) then
      r.(staticAnalyzerErrors := r.staticAnalyzerErrors + [e])
    else
      r.(otherErrors := r.otherErrors + [e])
  }

  /** A sequence of `AddError` calls, in order. */
  function AddErrors(r: ErrorReport, es: seq<VisualStudioError>): ErrorReport
  {
    if es == [] then r else AddError(AddErrors(r, es[..|es| - 1]), es[|es| - 1])
  }

  /** The errors of `es` whose classification is `staticAnalysis`, in their order. */
  function Bucket(es: seq<VisualStudioError>, staticAnalysis: bool): (b: seq<VisualStudioError>)
    ensures |b| <= |es|
    ensures forall e :: e in b ==> e in es && IsStaticAnalysisCode(e.code) == staticAnalysis
    ensures forall e :: e in es && IsStaticAnalysisCode(e.code) == staticAnalysis ==> e in b
  {
    if es == [] then []
    else
      var last := es[|es| - 1];
      Bucket(es[..|es| - 1], staticAnalysis) + (if IsStaticAnalysisCode(last.code) == staticAnalysis then [last] else [])
  }

  /** Every error lands in exactly one of the two buckets. */
  lemma {:induction false} BucketsPartition(es: seq<VisualStudioError>)
    ensures |Bucket(es, true)| + |Bucket(es, false)| == |es|
  {
    if es != [] {
      BucketsPartition(es[..|es| - 1]);
    }
  }

  /**
   Adding a sequence of errors appends, to each list, the errors of its
   class in the order they were added; identity is untouched.
   */
  lemma {:induction false} AddErrorsBuckets(r: ErrorReport, es: seq<VisualStudioError>)
    ensures SameIdentity(r, AddErrors(r, es))
    ensures AddErrors(r, es).staticAnalyzerErrors == r.staticAnalyzerErrors + Bucket(es, true)
    ensures AddErrors(r, es).otherErrors == r.otherErrors + Bucket(es, false)
  {
    if es != [] {
      var prefix := es[..|es| - 1];
      AddErrorsBuckets(r, prefix);
      var last := es[|es| - 1];
      if IsStaticAnalysisCode(last.code) {
        assert r.staticAnalyzerErrors + Bucket(prefix, true) + [last]
            == r.staticAnalyzerErrors + (Bucket(prefix, true) + [last]);
        assert r.otherErrors + Bucket(prefix, false) + [] == r.otherErrors + Bucket(prefix, false);
      } else {
        assert r.otherErrors + Bucket(prefix, false) + [last]
            == r.otherErrors + (Bucket(prefix, false) + [last]);
        assert r.staticAnalyzerErrors + Bucket(prefix, true) + [] == r.staticAnalyzerErrors + Bucket(prefix, true);
      }
    }
  }

  /** Starting from a fresh report, the two lists together hold one entry per `AddError` call. */
  lemma NewReportCountsCalls(solutionName: string, projectName: string, timeStamp: int, es: seq<VisualStudioError>)
    ensures Size(AddErrors(NewReport(solutionName, projectName, timeStamp), es)) == |es|
  {
    AddErrorsBuckets(NewReport(solutionName, projectName, timeStamp), es);
    BucketsPartition(es);
  }
}

=== FILE: Issue.dfy ===
/**
 A code-quality issue and its fingerprint. The fingerprint is the upper-case
 hexadecimal rendering of a 16-byte digest of the ASCII bytes of the key
 `description ++ location ++ severity name`; issue equality and hashing go
 through the fingerprint alone. The digest algorithm itself is a parameter.
 */
module Issues {
  import opened Results
  import opened Text
  import opened Locations
  import opened Severities

  newtype byte = x: int | 0 <= x < 256

  /** A 16-byte digest. */
  type Digest = s: seq<byte> | |s| == 16 witness [0, 0, 0, 0, 0, 0, 0, 0, 0, 0, 0, 0, 0, 0, 0, 0]

  /** The digest algorithm (MD5 in the tool), left uninterpreted. */
  type DigestFunction = seq<byte> -> Digest

  datatype Issue = Issue(description: string, location: Location, severity: Severity)

  /** An issue none of whose properties were set. */
  const DefaultIssue := Issue("", DefaultLocation, DefaultSeverity)

  /** The key of an issue none of whose properties were set: line 0 and the name of Info. */
  lemma DefaultIssueKey()
    ensures FingerprintKey(DefaultIssue) == "0Info"
  {
    DefaultLocationString();
  }

  /** The string that is hashed: the three parts concatenated without delimiters. */
  function FingerprintKey(i: Issue): string {
    i.description + LocationString(i.location) + Name(i.severity)
  }

  /** The key starts with the description, then the location, and ends with the enum name. */
  lemma FingerprintKeyParts(i: Issue)
    ensures i.description <= FingerprintKey(i)
    ensures FingerprintKey(i)[|i.description|..|i.description| + |LocationString(i.location)|] == LocationString(i.location)
    ensures var k := FingerprintKey(i); k[|k| - |Name(i.severity)|..] == Name(i.severity)
  {
    var k := FingerprintKey(i);
    assert k == i.description + LocationString(i.location) + Name(i.severity);
  }

  /** The ASCII encoder's byte for one character: itself below 128, `?` otherwise. */
  function AsciiByte(c: char): (b: byte)
    ensures (c as int) < 128 ==> b as int == c as int
    ensures (c as int) >= 128 ==> b == 63
  {
    if (c as int) < 128 then (c as int) as byte else 63
  }

  /** No character of `s` lies outside the Basic Multilingual Plane: one UTF-16 code unit each. */
  predicate IsBmp(s: string) {
    forall k :: 0 <= k < |s| ==> (s[k] as int) < 0x10000
  }

  /**
   The encoder's bytes for one character, one per UTF-16 code unit: a
   character outside the Basic Multilingual Plane is a surrogate pair, and
   the replacement fallback writes `?` for each of its two units.
   */
  function CharBytes(c: char): (bs: seq<byte>)
    ensures (c as int) < 0x10000 ==> bs == [AsciiByte(c)]
    ensures (c as int) >= 0x10000 ==> bs == [63, 63]
  {
    if (c as int) < 0x10000 then [AsciiByte(c)] else [63, 63]
  }

  /**
   `Encoding.ASCII.GetBytes`: at least one byte per character. On text
   inside the Basic Multilingual Plane it is exactly one byte per
   character, each the character's own byte; any character outside it
   makes the encoding longer than the text.
   */
  function AsciiBytes(s: string): (bs: seq<byte>)
    ensures |bs| >= |s|
    ensures IsBmp(s) ==> |bs| == |s| && forall k :: 0 <= k < |s| ==> bs[k] == AsciiByte(s[k])
    ensures !IsBmp(s) ==> |bs| > |s|
  {
    if s == [] then []
    else
      assert forall k :: 0 <= k < |s| - 1 ==> s[1..][k] == s[k + 1];
      assert !IsBmp(s) && (s[0] as int) < 0x10000 ==> !IsBmp(s[1..]) by {
        if !IsBmp(s) && (s[0] as int) < 0x10000 {
          var k :| 0 <= k < |s| && (s[k] as int) >= 0x10000;
          assert s[1..][k - 1] == s[k];
        }
      }
      CharBytes(s[0]) + AsciiBytes(s[1..])
  }

  /** A character outside the Basic Multilingual Plane gives two bytes; "aéb" and "a\U{1F600}b" differ in length. */
  lemma AsciiBytesExamples()
    ensures AsciiBytes("a\U{1F600}b") == [97, 63, 63, 98]
    ensures AsciiBytes("a\U{E9}b") == [97, 63, 98]
  {
    assert "a\U{1F600}b"[1..][1..] == "b";
    assert "a\U{E9}b"[1..][1..] == "b";
  }

  /** Encoding is character by character, so it distributes over concatenation. */
  lemma {:induction false} AsciiBytesAppend(s: string, t: string)
    ensures AsciiBytes(s + t) == AsciiBytes(s) + AsciiBytes(t)
  {
    if s == [] {
      assert s + t == t;
    } else {
      assert (s + t)[0] == s[0];
      assert (s + t)[1..] == s[1..] + t;
      AsciiBytesAppend(s[1..], t);
    }
  }

  predicate IsAscii(s: string) {
    forall k :: 0 <= k < |s| ==> (s[k] as int) < 128
  }

  /** Decoding ASCII bytes back to characters. */
  function AsciiChars(bs: seq<byte>): (s: string)
    ensures |s| == |bs|
    ensures forall k :: 0 <= k < |bs| ==> s[k] as int == bs[k] as int
  {
    if bs == [] then [] else [(bs[0] as int) as char] + AsciiChars(bs[1..])
  }

  /** On ASCII text the encoding loses nothing. */
  lemma AsciiRoundTrip(s: string)
    requires IsAscii(s)
    ensures AsciiChars(AsciiBytes(s)) == s
  {
    assert IsBmp(s);
    var t := AsciiChars(AsciiBytes(s));
    assert |t| == |s|;
    forall k | 0 <= k < |s| ensures t[k] == s[k] {
      assert t[k] as int == s[k] as int;
    }
  }

  /**
   Outside ASCII it does: two non-ASCII characters of the same UTF-16
   width at the same place give the same bytes.
   */
  lemma AsciiCollision(prefix: string, c: char, d: char, suffix: string)
    requires (c as int) >= 128 && (d as int) >= 128
    requires ((c as int) < 0x10000) == ((d as int) < 0x10000)
    ensures AsciiBytes(prefix + [c] + suffix) == AsciiBytes(prefix + [d] + suffix)
  {
    assert CharBytes(c) == CharBytes(d);
    assert AsciiBytes([c]) == CharBytes(c) by { assert [c][1..] == []; }
    assert AsciiBytes([d]) == CharBytes(d) by { assert [d][1..] == []; }
    AsciiBytesAppend(prefix + [c], suffix);
    AsciiBytesAppend(prefix, [c]);
    AsciiBytesAppend(prefix + [d], suffix);
    AsciiBytesAppend(prefix, [d]);
  }

  predicate IsUpperHexDigit(c: char) {
    ('0' <= c <= '9') || ('A' <= c <= 'F')
  }

  function HexDigit(n: nat): (c: char)
    requires n < 16
    ensures IsUpperHexDigit(c)
  {
    if n < 10 then ('0' as int + n) as char else ('A' as int + n - 10) as char
  }

  function HexValue(c: char): (n: nat)
    requires IsUpperHexDigit(c)
    ensures n < 16
  {
    if c <= '9' then c as int - '0' as int else c as int - 'A' as int + 10
  }

  lemma HexDigitRoundTrip(n: nat)
    requires n < 16
    ensures HexValue(HexDigit(n)) == n
  {
  }

  /** `Convert.ToHexString`: two upper-case digits per byte, high nibble first. */
  function ToHex(bs: seq<byte>): (h: string)
    ensures |h| == 2 * |bs|
    ensures forall k :: 0 <= k < |h| ==> IsUpperHexDigit(h[k])
  {
    if bs == [] then []
    else [HexDigit(bs[0] as int / 16), HexDigit(bs[0] as int % 16)] + ToHex(bs[1..])
  }

  /** Reads a string of upper-case hex digit pairs back into bytes. */
  function FromHex(h: string): seq<byte>
    requires |h| % 2 == 0
    requires forall k :: 0 <= k < |h| ==> IsUpperHexDigit(h[k])
  {
    if h == [] then [] else [(HexValue(h[0]) * 16 + HexValue(h[1])) as byte] + FromHex(h[2..])
  }

  /** Hex decoding undoes hex encoding, so equal hex strings mean equal bytes. */
  lemma {:induction false} HexRoundTrip(bs: seq<byte>)
    ensures FromHex(ToHex(bs)) == bs
  {
    if bs != [] {
      var h := ToHex(bs);
      HexDigitRoundTrip(bs[0] as int / 16);
      HexDigitRoundTrip(bs[0] as int % 16);
      assert h[2..] == ToHex(bs[1..]);
      HexRoundTrip(bs[1..]);
    }
  }

  lemma HexInjective(a: seq<byte>, b: seq<byte>)
    requires ToHex(a) == ToHex(b)
    ensures a == b
  {
    HexRoundTrip(a);
    HexRoundTrip(b);
  }

  /** The `Fingerprint` property: 32 upper-case hex digits. */
  function Fingerprint(md5: DigestFunction, i: Issue): (f: string)
    ensures |f| == 32
    ensures forall k :: 0 <= k < |f| ==> IsUpperHexDigit(f[k])
  {
    ToHex(md5(AsciiBytes(FingerprintKey(i))))
  }

  /** The fingerprint is a function of the key alone. */
  lemma FingerprintDependsOnlyOnKey(md5: DigestFunction, a: Issue, b: Issue)
    requires FingerprintKey(a) == FingerprintKey(b)
    ensures Fingerprint(md5, a) == Fingerprint(md5, b)
  {
  }

  /** Two fingerprints agree exactly when the digests of the encoded keys agree. */
  lemma FingerprintsAgreeIffDigestsAgree(md5: DigestFunction, a: Issue, b: Issue)
    ensures Fingerprint(md5, a) == Fingerprint(md5, b) <==>
              md5(AsciiBytes(FingerprintKey(a))) == md5(AsciiBytes(FingerprintKey(b)))
  {
    if Fingerprint(md5, a) == Fingerprint(md5, b) {
      HexInjective(md5(AsciiBytes(FingerprintKey(a))), md5(AsciiBytes(FingerprintKey(b))));
    }
  }

  /**
   Moving text between the end of the description and the start of the path
   does not change the key, so, whatever the digest, ("AB", path "C") and
   ("A", path "BC") are different issues with the same fingerprint.
   */
  lemma FingerprintFieldShift(md5: DigestFunction, x: string, y: string, z: string, line: int, severity: Severity)
    ensures var a := Issue(x + y, Location(z, Lines(line)), severity);
            var b := Issue(x, Location(y + z, Lines(line)), severity);
            && (y != [] ==> a != b)
            && Fingerprint(md5, a) == Fingerprint(md5, b)
  {
    var a := Issue(x + y, Location(z, Lines(line)), severity);
    var b := Issue(x, Location(y + z, Lines(line)), severity);
    KeyFieldShift(x, y, z, line, severity);
    FingerprintDependsOnlyOnKey(md5, a, b);
    assert y != [] ==> |a.description| != |b.description|;
  }

  /** The key of the shifted issue, regrouped. */
  lemma KeyFieldShift(x: string, y: string, z: string, line: int, severity: Severity)
    ensures FingerprintKey(Issue(x + y, Location(z, Lines(line)), severity))
         == FingerprintKey(Issue(x, Location(y + z, Lines(line)), severity))
  {
    Regroup(x, y, z, IntToDecimal(line), Name(severity));
  }

  /** Concatenation is associative (stated for the shape the key takes). */
  lemma Regroup(x: string, y: string, z: string, d: string, n: string)
    ensures (x + y) + (z + d) + n == x + ((y + z) + d) + n
  {
  }

  /**
   Descriptions that differ only in which non-ASCII character stands at one
   position share a fingerprint, as long as both characters have the same
   UTF-16 width.
   */
  lemma FingerprintNonAsciiCollision(md5: DigestFunction, prefix: string, c: char, d: char, suffix: string,
                                     location: Location, severity: Severity)
    requires (c as int) >= 128 && (d as int) >= 128
    requires ((c as int) < 0x10000) == ((d as int) < 0x10000)
    ensures Fingerprint(md5, Issue(prefix + [c] + suffix, location, severity))
         == Fingerprint(md5, Issue(prefix + [d] + suffix, location, severity))
  {
    var a := Issue(prefix + [c] + suffix, location, severity);
    var b := Issue(prefix + [d] + suffix, location, severity);
    var rest := LocationString(location) + Name(severity);
    assert FingerprintKey(a) == a.description + rest;
    assert FingerprintKey(b) == b.description + rest;
    AsciiCollision(prefix, c, d, suffix);
    AsciiBytesAppend(a.description, rest);
    AsciiBytesAppend(b.description, rest);
  }

  /** The key holds the enum name ("Critical"), not the wire token ("critical"). */
  lemma FingerprintKeyUsesName(description: string, location: Location)
    ensures var k := FingerprintKey(Issue(description, location, Critical));
            k[|k| - 8..] == "Critical" && k[|k| - 8..] != Token(Critical)
  {
    var k := FingerprintKey(Issue(description, location, Critical));
    assert k[|k| - 8..] == "Critical";
    assert "Critical"[0] != "critical"[0];
  }

  /**
   `Equals(Issue?)`: false for null (or, in the `object` overload, for
   anything that is not an issue); otherwise fingerprint equality.
   */
  function IssueEquals(md5: DigestFunction, a: Issue, other: Option<Issue>): (eq: bool)
    ensures other.None? ==> !eq
    ensures other.Some? ==> (eq <==> Fingerprint(md5, a) == Fingerprint(md5, other.value))
  {
    match other
    case None => false
    case Some(b) => Fingerprint(md5, a) == Fingerprint(md5, b)
  }

  /** On issues, `Equals` is an equivalence relation. */
  lemma IssueEqualsIsEquivalence(md5: DigestFunction, a: Issue, b: Issue, c: Issue)
    ensures IssueEquals(md5, a, Some(a))
    ensures IssueEquals(md5, a, Some(b)) ==> IssueEquals(md5, b, Some(a))
    ensures IssueEquals(md5, a, Some(b)) && IssueEquals(md5, b, Some(c)) ==> IssueEquals(md5, a, Some(c))
  {
  }

  /** `GetHashCode`: the string hash (a parameter: it varies between processes) of the fingerprint. */
  function HashCode(stringHash: string -> int, md5: DigestFunction, a: Issue): int {
    stringHash(Fingerprint(md5, a))
  }

  /** Equal issues have equal hash codes. */
  lemma EqualIssuesHashEqually(stringHash: string -> int, md5: DigestFunction, a: Issue, b: Issue)
    requires IssueEquals(md5, a, Some(b))
    ensures HashCode(stringHash, md5, a) == HashCode(stringHash, md5, b)
  {
  }
}

=== FILE: Location.dfy ===
/** Where a code-quality issue was found: a path and the line it begins on. */
module Locations {
  import opened Results
  import opened Text

  datatype Lines = Lines(begin: int)

  datatype Location = Location(path: string, lines: Lines)

  /** A location whose properties were never set. */
  const DefaultLocation := Location("", Lines(0))

  /**
   `ToString`: the path immediately followed by the decimal rendering of
   the first line, with no separator.
   */
  function LocationString(l: Location): (s: string)
    ensures l.path <= s
    ensures s[|l.path|..] == IntToDecimal(l.lines.begin)
    ensures |s| > |l.path|
  {
    l.path + IntToDecimal(l.lines.begin)
  }

  /** The rendering is recovered from its two parts once the path length is known. */
  lemma LocationStringSplits(l: Location)
    ensures ParseDecimal(LocationString(l)[|l.path|..]) == Some(l.lines.begin)
  {
    IntToDecimalRoundTrip(l.lines.begin);
  }

  /** A default location renders as "0". */
  lemma DefaultLocationString()
    ensures LocationString(DefaultLocation) == "0"
  {
  }

  /** Without a separator the rendering is not injective: ("a1", 2) and ("a", 12) both give "a12". */
  lemma LocationStringNotInjective()
    ensures Location("a1", Lines(2)) != Location("a", Lines(12))
    ensures LocationString(Location("a1", Lines(2))) == "a12"
    ensures LocationString(Location("a", Lines(12))) == "a12"
  {
  }
}

=== FILE: Program.dfy ===
/**
 The decisions `Main` takes around the build: the minimum-version gate,
 the error-level filter while the error list is collected into a report,
 and the exit code chosen from the static-analysis errors alone.
 */
module Program {
  import opened Results
  import opened VisualStudioErrors
  import opened ErrorReports
  import opened Traversal

  /** The three process outcomes (their integer values are not part of this model). */
  datatype ExitCode = ReturnSuccessful | ReturnUnstable | ReturnError

  /** Some error of `es` has exactly this level. */
  predicate AnyAtLevel(es: seq<VisualStudioError>, level: ErrorLevel) {
    exists e :: e in es && e.errorLevel == level
  }

  /**
   The exit decision: error when any static-analysis error is High,
   otherwise unstable when any is Medium, otherwise success.
   */
  function ExitCodeFor(staticErrors: seq<VisualStudioError>): (c: ExitCode)
    ensures c == ReturnError <==> AnyAtLevel(staticErrors, High)
    ensures c == ReturnUnstable <==> !AnyAtLevel(staticErrors, High) && AnyAtLevel(staticErrors, Medium)
    ensures c == ReturnSuccessful <==> !AnyAtLevel(staticErrors, High) && !AnyAtLevel(staticErrors, Medium)
  {
    if AnyAtLevel(staticErrors, High) then ReturnError
    else if AnyAtLevel(staticErrors, Medium) then ReturnUnstable
    else ReturnSuccessful
  }

  /** How bad one level is for the exit decision: High 2, Medium 1, anything else 0. */
  function Rank(level: ErrorLevel): nat {
    if level == High then 2 else if level == Medium then 1 else 0
  }

  /** The worst rank present, by a left-to-right scan. */
  function WorstRank(es: seq<VisualStudioError>): (w: nat)
    ensures w <= 2
  {
    if es == [] then 0
    else
      var rest := WorstRank(es[..|es| - 1]);
      var here := Rank(es[|es| - 1].errorLevel);
      if here > rest then here else rest
  }

  /** The exit code a worst rank stands for. */
  function ExitCodeOfRank(w: nat): ExitCode {
    if w == 2 then ReturnError else if w == 1 then ReturnUnstable else ReturnSuccessful
  }

  /** The worst rank reaches `n` exactly when some error has a level of rank at least `n`. */
  lemma {:induction false} WorstRankReaches(es: seq<VisualStudioError>, n: nat)
    ensures WorstRank(es) >= n <==> n == 0 || exists e :: e in es && Rank(e.errorLevel) >= n
  {
    if es != [] {
      var prefix := es[..|es| - 1];
      WorstRankReaches(prefix, n);
      assert es == prefix + [es[|es| - 1]];
      if n > 0 && exists e :: e in es && Rank(e.errorLevel) >= n {
        var e :| e in es && Rank(e.errorLevel) >= n;
        if e != es[|es| - 1] {
          assert e in prefix;
        }
      }
    }
  }

  /** The two `Any` scans decide what a scan for the worst severity decides. */
  lemma ExitCodeIsWorstSeverity(es: seq<VisualStudioError>)
    ensures ExitCodeFor(es) == ExitCodeOfRank(WorstRank(es))
  {
    WorstRankReaches(es, 1);
    WorstRankReaches(es, 2);
    if AnyAtLevel(es, Medium) {
      var e :| e in es && e.errorLevel == Medium;
      assert Rank(e.errorLevel) >= 1;
    }
    if AnyAtLevel(es, High) {
      var e :| e in es && e.errorLevel == High;
      assert Rank(e.errorLevel) >= 2;
    }
  }

  /** The decision looks only at which levels are present, not at their order or count. */
  lemma ExitCodeOrderIndependent(a: seq<VisualStudioError>, b: seq<VisualStudioError>)
    requires forall e :: e in a <==> e in b
    ensures ExitCodeFor(a) == ExitCodeFor(b)
  {
  }

  /** The decision for a report: adding an error outside static analysis never changes it. */
  lemma OtherErrorsDoNotAffectExitCode(r: ErrorReport, e: VisualStudioError)
    requires !IsStaticAnalysisCode(e.code)
    ensures ExitCodeFor(AddError(r, e).staticAnalyzerErrors) == ExitCodeFor(r.staticAnalyzerErrors)
  {
  }

  /** The concrete scenarios: {High} and {Medium, High} fail, {Medium} is unstable, {} and {Low} succeed. */
  lemma ExitCodeScenarios(high: VisualStudioError, medium: VisualStudioError, low: VisualStudioError)
    requires high.errorLevel == High && medium.errorLevel == Medium && low.errorLevel == Low
    ensures ExitCodeFor([high]) == ReturnError
    ensures ExitCodeFor([medium, high]) == ReturnError
    ensures ExitCodeFor([medium]) == ReturnUnstable
    ensures ExitCodeFor([]) == ReturnSuccessful
    ensures ExitCodeFor([low]) == ReturnSuccessful
  {
    assert high in [high];
    assert high in [medium, high];
    assert medium in [medium];
  }

  /**
   A `System.Version`: two to four components; an absent build or revision
   is stored as -1, which orders below every present value.
   */
  datatype Version = Version(major: int, minor: int, build: int, revision: int)

  const Absent := -1

  /** `new Version(..)` from already parsed components: throws unless there are 2 to 4. */
  function MakeVersion(components: seq<nat>): (r: Result<Version>)
    ensures r.Ok? <==> 2 <= |components| <= 4
    ensures r.Ok? ==>
              && r.value.major == components[0] && r.value.minor == components[1]
              && r.value.build == (if |components| > 2 then components[2] else Absent)
              && r.value.revision == (if |components| > 3 then components[3] else Absent)
  {
    if |components| < 2 || |components| > 4 then Err(ArgumentException)
    else
      Ok(Version(components[0], components[1],
                 if |components| > 2 then components[2] else Absent,
                 if |components| > 3 then components[3] else Absent))
  }

  /** The components in comparison order. */
  function Fields(v: Version): seq<int> {
    [v.major, v.minor, v.build, v.revision]
  }

  /** `CompareTo`: -1, 0 or 1 from the first component that differs. */
  function CompareVersions(a: Version, b: Version): (c: int)
    ensures c in {-1, 0, 1}
    ensures c == 0 <==> a == b
  {
    if a.major != b.major then (if a.major < b.major then -1 else 1)
    else if a.minor != b.minor then (if a.minor < b.minor then -1 else 1)
    else if a.build != b.build then (if a.build < b.build then -1 else 1)
    else if a.revision != b.revision then (if a.revision < b.revision then -1 else 1)
    else 0
  }

  /** Lexicographic order on the four components, the reference the comparison is measured against. */
  predicate LexLess(x: seq<int>, y: seq<int>)
    requires |x| == |y|
  {
    exists i | 0 <= i < |x| :: x[..i] == y[..i] && x[i] < y[i]
  }

  /** A negative comparison is exactly lexicographic precedence, and swapping the arguments negates it. */
  lemma CompareVersionsIsLexicographic(a: Version, b: Version)
    ensures CompareVersions(a, b) < 0 <==> LexLess(Fields(a), Fields(b))
    ensures CompareVersions(b, a) == -CompareVersions(a, b)
  {
    var x, y := Fields(a), Fields(b);
    if LexLess(x, y) {
      var i :| 0 <= i < 4 && x[..i] == y[..i] && x[i] < y[i];
      if i > 0 { assert x[..i][0] == y[..i][0]; }
      if i > 1 { assert x[..i][1] == y[..i][1]; }
      if i > 2 { assert x[..i][2] == y[..i][2]; }
    }
    if CompareVersions(a, b) < 0 {
      if a.major != b.major {
        assert x[..0] == y[..0];
      } else if a.minor != b.minor {
        assert x[..1] == y[..1];
      } else if a.build != b.build {
        assert x[..2] == y[..2];
      } else {
        assert x[..3] == y[..3];
      }
    }
  }

  /** The comparison is transitive. */
  lemma CompareVersionsTransitive(a: Version, b: Version, c: Version)
    requires CompareVersions(a, b) < 0 && CompareVersions(b, c) < 0
    ensures CompareVersions(a, c) < 0
  {
  }

  /** The oldest tool version with static analysis, 3.1.4022.0. */
  const MinimumVersion := Version(3, 1, 4022, 0)

  /** The gate: the run may continue unless the detected version is below the minimum. */
  predicate PassesVersionGate(detected: Version)
    ensures PassesVersionGate(detected) <==> !LexLess(Fields(detected), Fields(MinimumVersion))
  {
    CompareVersionsIsLexicographic(detected, MinimumVersion);
    CompareVersions(detected, MinimumVersion) >= 0
  }

  lemma VersionGateExamples()
    ensures PassesVersionGate(Version(3, 1, 4024, 0))
    ensures PassesVersionGate(MinimumVersion)
    ensures !PassesVersionGate(Version(3, 1, 4021, 5))
    ensures MakeVersion([3, 1, 4022]) == Ok(Version(3, 1, 4022, Absent))
    ensures !PassesVersionGate(Version(3, 1, 4022, Absent))
  {
  }

  /** Error list entries the collection loop hands to `AddError`: those whose level is not Low. */
  function Forwarded(items: seq<ComErrorItem>): (f: seq<ComErrorItem>)
    ensures |f| <= |items|
    ensures forall x :: x in f ==> x in items && x.errorLevel != Low.value
    ensures forall x :: x in items && x.errorLevel != Low.value ==> x in f
  {
    if items == [] then []
    else
      var last := items[|items| - 1];
      Forwarded(items[..|items| - 1]) + (if last.errorLevel != Low.value then [last] else [])
  }

  /** `MakeError` for one solution directory: the constructor the collection loop calls. */
  function ErrorBuilder(solutionDirectory: string): ComErrorItem -> Result<VisualStudioError> {
    item => MakeError(item, solutionDirectory)
  }

  /** The collection loop as a whole: filter, construct, add, in index order. */
  function Collect(report: ErrorReport, items: seq<ComErrorItem>, solutionDirectory: string): Result<ErrorReport> {
    match Traverse(ErrorBuilder(solutionDirectory), Forwarded(items))
    case Err(e) => Err(e)
    case Ok(es) => Ok(AddErrors(report, es))
  }

  /** One more item of the error list: the filtered list grows by it unless it is Low. */
  lemma ForwardedStep(items: seq<ComErrorItem>, i: int)
    requires 0 <= i < |items|
    ensures Forwarded(items[..i + 1])
         == Forwarded(items[..i]) + (if items[i].errorLevel != Low.value then [items[i]] else [])
  {
    assert items[..i + 1][..i] == items[..i];
  }

  /** Filtering distributes over concatenation. */
  lemma {:induction false} ForwardedAppend(a: seq<ComErrorItem>, b: seq<ComErrorItem>)
    ensures Forwarded(a + b) == Forwarded(a) + Forwarded(b)
  {
    if b != [] {
      var n := |b| - 1;
      ForwardedAppend(a, b[..n]);
      assert (a + b)[..|a + b| - 1] == a + b[..n];
    } else {
      assert a + b == a;
    }
  }

  /** A Low item is skipped: nothing is built for it. */
  lemma CollectStepSkips<U>(make: ComErrorItem -> Result<U>, items: seq<ComErrorItem>, i: int)
    requires 0 <= i < |items| && items[i].errorLevel == Low.value
    ensures Traverse(make, Forwarded(items[..i + 1])) == Traverse(make, Forwarded(items[..i]))
  {
    ForwardedStep(items, i);
    assert Forwarded(items[..i]) + [] == Forwarded(items[..i]);
  }

  /** A forwarded item that is built extends the built list by its result. */
  lemma CollectStepAdds<U>(make: ComErrorItem -> Result<U>, items: seq<ComErrorItem>, i: int, built: seq<U>, x: U)
    requires 0 <= i < |items| && items[i].errorLevel != Low.value
    requires Traverse(make, Forwarded(items[..i])) == Ok(built)
    requires make(items[i]) == Ok(x)
    ensures Traverse(make, Forwarded(items[..i + 1])) == Ok(built + [x])
  {
    ForwardedStep(items, i);
    TraverseStep(make, Forwarded(items[..i]), items[i], built);
  }

  /** A forwarded item whose constructor throws makes the prefix up to it throw that exception. */
  lemma CollectPrefixFails<U>(make: ComErrorItem -> Result<U>, items: seq<ComErrorItem>, i: int, built: seq<U>)
    requires 0 <= i < |items| && items[i].errorLevel != Low.value
    requires Traverse(make, Forwarded(items[..i])) == Ok(built)
    requires make(items[i]).Err?
    ensures Traverse(make, Forwarded(items[..i + 1])) == Err(make(items[i]).error)
  {
    ForwardedStep(items, i);
    TraverseStep(make, Forwarded(items[..i]), items[i], built);
  }

  /** ... and then the whole list throws it: later items are never looked at. */
  lemma CollectStepFails<U>(make: ComErrorItem -> Result<U>, items: seq<ComErrorItem>, i: int, built: seq<U>)
    requires 0 <= i < |items| && items[i].errorLevel != Low.value
    requires Traverse(make, Forwarded(items[..i])) == Ok(built)
    requires make(items[i]).Err?
    ensures Traverse(make, Forwarded(items)) == Err(make(items[i]).error)
  {
    var upTo := Forwarded(items[..i + 1]);
    CollectPrefixFails(make, items, i, built);
    assert Forwarded(items) == upTo + Forwarded(items[i + 1..]) by {
      SplitAt(items, i + 1);
      ForwardedAppend(items[..i + 1], items[i + 1..]);
    }
    TraverseAppendFails(make, upTo, Forwarded(items[i + 1..]));
  }

  /** Adding one more error at the end of a sequence of `AddError` calls. */
  lemma AddErrorsStep(report: ErrorReport, errors: seq<VisualStudioError>, error: VisualStudioError)
    ensures AddErrors(report, errors + [error]) == AddError(AddErrors(report, errors), error)
  {
    assert (errors + [error])[..|errors|] == errors;
  }

  /**
   The loop over the error list, items 1..Count: every item whose level is
   not Low is turned into an error and added, once, in index order; an
   item whose constructor throws ends the run.
   */
  method CollectErrors(report: ErrorReport, items: seq<ComErrorItem>, solutionDirectory: string)
    returns (r: Result<ErrorReport>)
    ensures r == Collect(report, items, solutionDirectory)
    ensures r.Ok? ==> Size(r.value) == Size(report) + |Forwarded(items)|
  {
    var build := ErrorBuilder(solutionDirectory);
    var current := report;
    ghost var errors: seq<VisualStudioError> := [];
    var ii := 1;
    while ii < |items| + 1
      invariant 1 <= ii <= |items| + 1
      invariant Traverse(build, Forwarded(items[..ii - 1])) == Ok(errors)
      invariant current == AddErrors(report, errors)
    {
      var item := items[ii - 1];
      if item.errorLevel != Low.value {
        var made := build(item);
        match made
        case Err(e) =>
          CollectStepFails(build, items, ii - 1, errors);
          return Err(e);
        case Ok(error) =>
          CollectStepAdds(build, items, ii - 1, errors, error);
          AddErrorsStep(report, errors, error);
          current := AddError(current, error);
          errors := errors + [error];
      } else {
        CollectStepSkips(build, items, ii - 1);
      }
      ii := ii + 1;
    }
    assert items[..|items|] == items;
    r := Ok(current);
    CollectCounts(report, items, solutionDirectory);
  }

  /** A successful collection adds exactly one error per forwarded item. */
  lemma CollectCounts(report: ErrorReport, items: seq<ComErrorItem>, solutionDirectory: string)
    ensures Collect(report, items, solutionDirectory).Ok? ==>
              Size(Collect(report, items, solutionDirectory).value) == Size(report) + |Forwarded(items)|
  {
    var made := Traverse(ErrorBuilder(solutionDirectory), Forwarded(items));
    if made.Ok? {
      AddErrorsBuckets(report, made.value);
      BucketsPartition(made.value);
    }
  }

  /** The collection throws exactly when some item that is not Low cannot be turned into an error. */
  lemma CollectFailsIffSomeItemFails(report: ErrorReport, items: seq<ComErrorItem>, dir: string)
    ensures Collect(report, items, dir).Err? <==>
              exists item :: item in items && item.errorLevel != Low.value && MakeError(item, dir).Err?
  {
    var forwarded := Forwarded(items);
    var build := ErrorBuilder(dir);
    TraverseOkIffAllOk(build, forwarded);
    if Collect(report, items, dir).Err? {
      var k :| 0 <= k < |forwarded| && !build(forwarded[k]).Ok?;
      assert forwarded[k] in forwarded;
    } else {
      forall item | item in items && item.errorLevel != Low.value ensures MakeError(item, dir).Ok? {
        var k :| 0 <= k < |forwarded| && forwarded[k] == item;
        assert build(forwarded[k]).Ok?;
      }
    }
  }

  /** How a run of `Main` ends, once argument and file checks have passed. */
  datatype MainOutcome =
    | Exited(code: ExitCode, report: Option<ErrorReport>)  // the report, when the build was collected
    | Crashed(error: Exception)                            // an exception nothing catches

  /**
   `Main` from the detected tool version on: the version is parsed and gated
   before any automation happens; then the error list (the build's result,
   an input here) is collected into a fresh report and the exit code is
   taken from its static-analysis errors.
   */
  function RunMain(tcVersion: seq<nat>, items: seq<ComErrorItem>, solutionPath: string, directoryName: string,
                   solutionName: string, projectName: string, timeStamp: int): (o: MainOutcome)
    ensures MakeVersion(tcVersion).Err? ==> o == Crashed(MakeVersion(tcVersion).error)
    ensures MakeVersion(tcVersion).Ok? && !PassesVersionGate(MakeVersion(tcVersion).value) ==>
              o == Exited(ReturnError, None)
    ensures o.Crashed? && MakeVersion(tcVersion).Ok? ==>
              Collect(NewReport(solutionName, projectName, timeStamp), items, SolutionDirectory(solutionPath, directoryName))
                == Err(o.error)
    ensures o.Exited? && o.report.Some? ==>
              Collect(NewReport(solutionName, projectName, timeStamp), items, SolutionDirectory(solutionPath, directoryName))
                == Ok(o.report.value)
    ensures o.Exited? && o.report.Some? ==>
              && MakeVersion(tcVersion).Ok?
              && PassesVersionGate(MakeVersion(tcVersion).value)
              && o.code == ExitCodeFor(o.report.value.staticAnalyzerErrors)
              && o.report.value.solutionName == solutionName && o.report.value.projectName == projectName
  {
    match MakeVersion(tcVersion)
    case Err(e) => Crashed(e)
    case Ok(detected) =>
      if !PassesVersionGate(detected) then
        Exited(ReturnError, None)
      else
        var initial := NewReport(solutionName, projectName, timeStamp);
        match Collect(initial, items, SolutionDirectory(solutionPath, directoryName))
        case Err(e) => Crashed(e)
        case Ok(report) =>
          AddErrorsBuckets(initial, Traverse(ErrorBuilder(SolutionDirectory(solutionPath, directoryName)), Forwarded(items)).value);
          Exited(ExitCodeFor(report.staticAnalyzerErrors), Some(report))
  }

  /**
   Some item of the error list has `level` and becomes an error whose code
   starts with "SA".
   */
  predicate StaticItemAtLevel(items: seq<ComErrorItem>, dir: string, level: ErrorLevel) {
    exists item :: item in items && item.errorLevel == level.value && MakeError(item, dir).Ok?
                   && IsStaticAnalysisCode(MakeError(item, dir).value.code)
  }

  /**
   The static-analysis errors built from the error list include one at a
   level other than Low exactly when some item of the list has that level
   and an "SA" code.
   */
  lemma BuiltStaticAtLevel(items: seq<ComErrorItem>, dir: string, es: seq<VisualStudioError>, level: ErrorLevel)
    requires Traverse(ErrorBuilder(dir), Forwarded(items)) == Ok(es)
    requires level != Low
    ensures AnyAtLevel(Bucket(es, true), level) <==> StaticItemAtLevel(items, dir, level)
  {
    var forwarded := Forwarded(items);
    if AnyAtLevel(Bucket(es, true), level) {
      var e :| e in Bucket(es, true) && e.errorLevel == level;
      var k :| 0 <= k < |es| && es[k] == e;
      assert ErrorBuilder(dir)(forwarded[k]) == Ok(es[k]);
      assert forwarded[k] in forwarded;
    }
    if StaticItemAtLevel(items, dir, level) {
      var item :| item in items && item.errorLevel == level.value && MakeError(item, dir).Ok?
                  && IsStaticAnalysisCode(MakeError(item, dir).value.code);
      assert item in forwarded;
      var k :| 0 <= k < |forwarded| && forwarded[k] == item;
      assert ErrorBuilder(dir)(forwarded[k]) == Ok(es[k]);
      assert es[k] in es;
    }
  }

  /**
   `Main` end to end once the version gate has passed: the run crashes
   exactly when some item that is not Low cannot be built. Otherwise it
   exits with a report holding one error per such item, with the error code
   exactly when some item is High with an "SA" code, and unstable exactly
   when none is and some item is Medium with an "SA" code.
   */
  lemma RunMainOutcome(tcVersion: seq<nat>, items: seq<ComErrorItem>, solutionPath: string, directoryName: string,
                       solutionName: string, projectName: string, timeStamp: int)
    requires MakeVersion(tcVersion).Ok? && PassesVersionGate(MakeVersion(tcVersion).value)
    ensures var o := RunMain(tcVersion, items, solutionPath, directoryName, solutionName, projectName, timeStamp);
            var dir := SolutionDirectory(solutionPath, directoryName);
            && (o.Crashed? <==> exists item :: item in items && item.errorLevel != Low.value && MakeError(item, dir).Err?)
            && (!o.Crashed? ==>
                  && o.Exited? && o.report.Some?
                  && Size(o.report.value) == |Forwarded(items)|
                  && (o.code == ReturnError <==> StaticItemAtLevel(items, dir, High))
                  && (o.code == ReturnUnstable <==>
                        !StaticItemAtLevel(items, dir, High) && StaticItemAtLevel(items, dir, Medium)))
  {
    var dir := SolutionDirectory(solutionPath, directoryName);
    var initial := NewReport(solutionName, projectName, timeStamp);
    CollectFailsIffSomeItemFails(initial, items, dir);
    if Collect(initial, items, dir).Ok? {
      var es := Traverse(ErrorBuilder(dir), Forwarded(items)).value;
      CollectedReportContents(initial, items, dir);
      BuiltStaticAtLevel(items, dir, es, High);
      BuiltStaticAtLevel(items, dir, es, Medium);
    }
  }

  /** A version below the minimum ends the run before the error list is looked at. */
  lemma GateFailureIgnoresBuild(tcVersion: seq<nat>, items: seq<ComErrorItem>, items': seq<ComErrorItem>,
                                solutionPath: string, directoryName: string,
                                solutionName: string, projectName: string, timeStamp: int)
    requires MakeVersion(tcVersion).Ok? && !PassesVersionGate(MakeVersion(tcVersion).value)
    ensures RunMain(tcVersion, items, solutionPath, directoryName, solutionName, projectName, timeStamp)
         == RunMain(tcVersion, items', solutionPath, directoryName, solutionName, projectName, timeStamp)
  {
  }

  /** The errors built by the collection keep their items' levels, so none is Low. */
  lemma BuiltErrorsAreNotLow(items: seq<ComErrorItem>, dir: string, es: seq<VisualStudioError>)
    requires Traverse(ErrorBuilder(dir), Forwarded(items)) == Ok(es)
    ensures forall e :: e in es ==> e.errorLevel != Low
  {
    var forwarded := Forwarded(items);
    forall e | e in es ensures e.errorLevel != Low {
      var k :| 0 <= k < |es| && es[k] == e;
      assert forwarded[k] in forwarded;
      assert MakeError(forwarded[k], dir) == Ok(e) by {
        assert ErrorBuilder(dir)(forwarded[k]) == Ok(es[k]);
      }
    }
  }

  /**
   After a collected build, the report holds exactly the forwarded errors:
   the "SA" ones in the static-analysis list and the rest in the other list,
   each in error-list order, and none of them Low.
   */
  lemma CollectedReportContents(report: ErrorReport, items: seq<ComErrorItem>, dir: string)
    requires report.staticAnalyzerErrors == [] && report.otherErrors == []
    requires Collect(report, items, dir).Ok?
    ensures var es := Traverse(ErrorBuilder(dir), Forwarded(items)).value;
            var r := Collect(report, items, dir).value;
            && r.staticAnalyzerErrors == Bucket(es, true)
            && r.otherErrors == Bucket(es, false)
            && Size(r) == |Forwarded(items)|
            && forall e :: e in r.staticAnalyzerErrors + r.otherErrors ==> e.errorLevel != Low
  {
    var es := Traverse(ErrorBuilder(dir), Forwarded(items)).value;
    assert Collect(report, items, dir).value == AddErrors(report, es);
    AddErrorsBuckets(report, es);
    BucketsPartition(es);
    BuiltErrorsAreNotLow(items, dir, es);
  }
}

=== FILE: Report.dfy ===
/**
 The code-quality report: every error of an error report projected to an
 issue (static-analysis errors first, then the others, each in list order),
 then duplicates by fingerprint removed, keeping the first occurrence.
 */
module CodeQualityReport {
  import opened VisualStudioErrors
  import opened ErrorReports
  import opened Locations
  import opened Severities
  import opened Issues
  import opened Distinctness

  /**
   The severity switch: Low, Medium and High become Minor, Major and
   Critical; any other level leaves the unset default, Info.
   */
  function SeverityFor(level: ErrorLevel): (s: Severity)
    ensures level == Low ==> s == Minor
    ensures level == Medium ==> s == Major
    ensures level == High ==> s == Critical
    ensures level != Low && level != Medium && level != High ==> s == DefaultSeverity
  {
    if level == Low then Minor
    else if level == High then Critical
    else if level == Medium then Major
    else DefaultSeverity
  }

  /** Blocker is never produced, and Info exactly for the unnamed levels. */
  lemma SeverityForRange(level: ErrorLevel)
    ensures SeverityFor(level) != Blocker
    ensures SeverityFor(level) == Info <==> level.value !in {1, 2, 4}
  {
  }

  /**
   `GitLabIssueFromVisualStudioError`: description `code + ": " + text`, the
   file name as path, the line as first line; column and project are dropped.
   */
  function IssueFromError(e: VisualStudioError): (i: Issue)
    ensures i.description == e.code + ": " + e.description
    ensures i.location.path == e.location.fileName && i.location.lines.begin == e.location.line
    ensures i.severity == SeverityFor(e.errorLevel)
  {
    Issue(e.code + ": " + e.description, Location(e.location.fileName, Lines(e.location.line)), SeverityFor(e.errorLevel))
  }

  /** The column and the project do not reach the issue. */
  lemma IssueIgnoresColumnAndProject(e: VisualStudioError, project: string, column: int)
    ensures IssueFromError(e) == IssueFromError(e.(location := e.location.(project := project, column := column)))
  {
  }

  /** An error without a code still gets the separator: its description starts with ": ". */
  lemma IssueWithoutCode(e: VisualStudioError)
    requires e.code == ""
    ensures IssueFromError(e).description == ": " + e.description
  {
  }

  /** The issues of a list of errors, one per error, in order. */
  function IssuesOf(es: seq<VisualStudioError>): (list: seq<Issue>)
    ensures |list| == |es|
    ensures forall k :: 0 <= k < |es| ==> list[k] == IssueFromError(es[k])
  {
    seq(|es|, k requires 0 <= k < |es| => IssueFromError(es[k]))
  }

  /** The issue list before deduplication: static-analysis errors first, then the others. */
  function CollectIssues(r: ErrorReport): (list: seq<Issue>)
    ensures |list| == |r.staticAnalyzerErrors| + |r.otherErrors|
    ensures forall k :: 0 <= k < |r.staticAnalyzerErrors| ==> list[k] == IssueFromError(r.staticAnalyzerErrors[k])
    ensures forall k :: 0 <= k < |r.otherErrors| ==>
              list[|r.staticAnalyzerErrors| + k] == IssueFromError(r.otherErrors[k])
  {
    IssuesOf(r.staticAnalyzerErrors) + IssuesOf(r.otherErrors)
  }

  /** The fingerprint as the key `Distinct` compares. */
  function FingerprintOf(md5: DigestFunction): Issue -> string {
    i => Fingerprint(md5, i)
  }

  /** `Report.ToJson` before serialisation: the deduplicated issue list. */
  function GitLabReport(md5: DigestFunction, r: ErrorReport): (list: seq<Issue>)
    ensures |list| <= |r.staticAnalyzerErrors| + |r.otherErrors|
  {
    KeepFirst(FingerprintOf(md5), CollectIssues(r))
  }

  /** The library walk computes the same list. */
  method GitLabReportByDistinct(md5: DigestFunction, r: ErrorReport) returns (list: seq<Issue>)
    ensures list == GitLabReport(md5, r)
  {
    list := Distinct(FingerprintOf(md5), CollectIssues(r));
  }

  /**
   The report holds no fingerprint twice, loses no fingerprint of any error,
   and each entry is an issue of some error.
   */
  lemma GitLabReportProperties(md5: DigestFunction, r: ErrorReport)
    ensures var list := GitLabReport(md5, r);
            && (forall a, b :: 0 <= a < b < |list| ==> Fingerprint(md5, list[a]) != Fingerprint(md5, list[b]))
            && Keys(FingerprintOf(md5), list) == Keys(FingerprintOf(md5), CollectIssues(r))
            && (forall y :: y in list ==> y in CollectIssues(r))
  {
    var list := GitLabReport(md5, r);
    KeepFirstProperties(FingerprintOf(md5), CollectIssues(r));
    assert KeysUnique(FingerprintOf(md5), list);
    forall a, b | 0 <= a < b < |list| ensures Fingerprint(md5, list[a]) != Fingerprint(md5, list[b]) {
      assert FingerprintOf(md5)(list[a]) != FingerprintOf(md5)(list[b]);
    }
  }

  /**
   Each entry of the report is the first issue with its fingerprint in the
   order static-analysis errors, then other errors.
   */
  lemma GitLabReportKeepsFirst(md5: DigestFunction, r: ErrorReport, k: int)
    requires 0 <= k < |GitLabReport(md5, r)|
    ensures var all := CollectIssues(r);
            exists i | 0 <= i < |all| ::
              && all[i] == GitLabReport(md5, r)[k]
              && forall j :: 0 <= j < i ==> Fingerprint(md5, all[j]) != Fingerprint(md5, all[i])
  {
    var all := CollectIssues(r);
    KeepFirstKeepsFirst(FingerprintOf(md5), all, k);
    var i :| 0 <= i < |all| && all[i] == GitLabReport(md5, r)[k] && IsFirstOccurrence(FingerprintOf(md5), all, i);
    forall j | 0 <= j < i ensures Fingerprint(md5, all[j]) != Fingerprint(md5, all[i]) {
      assert FingerprintOf(md5)(all[j]) != FingerprintOf(md5)(all[i]);
    }
  }

  /** An element of a list has its image in the list of images. */
  lemma ImageOfMember<T, U>(f: T -> U, xs: seq<T>, ys: seq<U>, x: T)
    requires |ys| == |xs| && forall k :: 0 <= k < |xs| ==> ys[k] == f(xs[k])
    requires x in xs
    ensures f(x) in ys
  {
    var i :| 0 <= i < |xs| && xs[i] == x;
    assert ys[i] == f(x);
  }

  /** Every error of the report contributes its issue to the collected list. */
  lemma ErrorIssueCollected(r: ErrorReport, e: VisualStudioError)
    requires e in r.staticAnalyzerErrors + r.otherErrors
    ensures IssueFromError(e) in CollectIssues(r)
  {
    if e in r.staticAnalyzerErrors {
      ImageOfMember(IssueFromError, r.staticAnalyzerErrors, IssuesOf(r.staticAnalyzerErrors), e);
    } else {
      ImageOfMember(IssueFromError, r.otherErrors, IssuesOf(r.otherErrors), e);
    }
  }

  /** Two errors whose issues share a fingerprint leave exactly one entry with it. */
  lemma DuplicateErrorsReportedOnce(md5: DigestFunction, r: ErrorReport, e: VisualStudioError)
    requires e in r.staticAnalyzerErrors + r.otherErrors
    ensures var list := GitLabReport(md5, r);
            var f := Fingerprint(md5, IssueFromError(e));
            && (exists k | 0 <= k < |list| :: Fingerprint(md5, list[k]) == f)
            && (forall k, l ::
                  (0 <= k < |list| && 0 <= l < |list| && Fingerprint(md5, list[k]) == f && Fingerprint(md5, list[l]) == f)
                  ==> k == l)
  {
    var all := CollectIssues(r);
    var list := GitLabReport(md5, r);
    GitLabReportProperties(md5, r);
    var f := Fingerprint(md5, IssueFromError(e));
    ErrorIssueCollected(r, e);
    assert f == FingerprintOf(md5)(IssueFromError(e));
    assert f in Keys(FingerprintOf(md5), all);
    assert f in Keys(FingerprintOf(md5), list);
    var y :| y in list && FingerprintOf(md5)(y) == f;
    var k :| 0 <= k < |list| && list[k] == y;
    assert Fingerprint(md5, list[k]) == f;
  }
}

=== FILE: Results.dfy ===
/**
 Failure-carrying wrappers shared by the model: an optional value (for C#'s
 `null`) and a result that is either a value or the .NET exception the
 modelled library call would have thrown.
 */
module Results {

  /** A value that may be absent, as a nullable reference is in C#. */
  datatype Option<+T> = None | Some(value: T)

  /** The .NET exceptions that the modelled library calls can raise. */
  datatype Exception =
    | ArgumentOutOfRange  // `String.Remove` with a range beyond the string
    | ArgumentException   // `new Version(..)` with fewer than 2 or more than 4 components

  /** Either the value a call returns or the exception it throws. */
  datatype Result<+T> = Ok(value: T) | Err(error: Exception)
}

=== FILE: Severity.dfy ===
/**
 The five severities of a code-quality issue, in declaration order, with
 their enum names (used in fingerprints) and their lower-case wire tokens
 (used in the JSON report).
 */
module Severities {
  import opened Results
  import opened Text

  datatype Severity = Info | Minor | Major | Critical | Blocker

  /** The underlying enum value: the position in declaration order. */
  function Ordinal(s: Severity): (n: nat)
    ensures n < 5
  {
    match s
    case Info => 0
    case Minor => 1
    case Major => 2
    case Critical => 3
    case Blocker => 4
  }

  /** The severity with a given underlying value, if any. */
  function FromOrdinal(n: int): Option<Severity> {
    if n == 0 then Some(Info)
    else if n == 1 then Some(Minor)
    else if n == 2 then Some(Major)
    else if n == 3 then Some(Critical)
    else if n == 4 then Some(Blocker)
    else None
  }

  /** Exactly the values 0..4 name a severity, each a different one, in declaration order. */
  lemma OrdinalBijection(s: Severity, n: int)
    ensures FromOrdinal(Ordinal(s)) == Some(s)
    ensures FromOrdinal(n).Some? <==> 0 <= n < 5
    ensures FromOrdinal(n).Some? ==> Ordinal(FromOrdinal(n).value) == n
  {
  }

  /**
   The value an unset severity field holds: the member whose underlying
   value is 0, which is the first declared one.
   */
  const DefaultSeverity: Severity := FromOrdinal(0).value

  lemma DefaultIsInfo()
    ensures DefaultSeverity == Info && Ordinal(DefaultSeverity) == 0
  {
  }

  /** The enum name, as string interpolation renders the value. */
  function Name(s: Severity): string {
    match s
    case Info => "Info"
    case Minor => "Minor"
    case Major => "Major"
    case Critical => "Critical"
    case Blocker => "Blocker"
  }

  /** The wire token: the value of the member's serialisation attribute. */
  function Token(s: Severity): string {
    match s
    case Info => "info"
    case Minor => "minor"
    case Major => "major"
    case Critical => "critical"
    case Blocker => "blocker"
  }

  /** Each token is its enum name with the capital letter lowered. */
  lemma TokenIsLowerCaseName(s: Severity)
    ensures Token(s) == ToLowerAscii(Name(s))
  {
  }

  /** Reading a wire token back. */
  function FromToken(t: string): Option<Severity> {
    if t == "info" then Some(Info)
    else if t == "minor" then Some(Minor)
    else if t == "major" then Some(Major)
    else if t == "critical" then Some(Critical)
    else if t == "blocker" then Some(Blocker)
    else None
  }

  /** Token and reading agree both ways, so distinct severities have distinct tokens. */
  lemma TokenRoundTrip(s: Severity, t: string)
    ensures FromToken(Token(s)) == Some(s)
    ensures FromToken(t).Some? ==> Token(FromToken(t).value) == t
  {
  }

  lemma TokenInjective(a: Severity, b: Severity)
    requires Token(a) == Token(b)
    ensures a == b
  {
    TokenRoundTrip(a, "");
    TokenRoundTrip(b, "");
  }

  /** Names and tokens differ (the name is capitalised), so the two must not be confused. */
  lemma NameIsNotToken(s: Severity)
    ensures Name(s) != Token(s)
  {
    assert Name(s)[0] != Token(s)[0];
  }
}

=== FILE: Text.dfy ===
/**
 The .NET string operations the tool relies on, stated over `seq<char>`:
 `char.IsWhiteSpace`, `string.IsNullOrWhiteSpace`, `Trim`, `Split(char)`,
 ordinal `Contains`, `Remove(0, n)` and the decimal rendering of an integer.
 */
module Text {
  import opened Results

  /** `char.IsWhiteSpace`: the Unicode White_Space characters. */
  predicate IsWhiteSpace(c: char) {
    || c == ' '
    || ('\t' <= c && c <= '\r')
    || c == '\U{85}' || c == '\U{A0}' || c == '\U{1680}'
    || ('\U{2000}' <= c && c <= '\U{200A}')
    || c == '\U{2028}' || c == '\U{2029}' || c == '\U{202F}' || c == '\U{205F}' || c == '\U{3000}'
  }

  /** `string.IsNullOrWhiteSpace` for a non-null string: empty or only white space. */
  predicate IsBlank(s: string) {
    forall k :: 0 <= k < |s| ==> IsWhiteSpace(s[k])
  }

  /** Every character of `s` from `lo` up to (not including) `hi` is white space. */
  predicate BlankBetween(s: string, lo: int, hi: int)
    requires 0 <= lo <= hi <= |s|
  {
    forall k :: lo <= k < hi ==> IsWhiteSpace(s[k])
  }

  /** The end of the run of white space in `s` that starts at `i`. */
  function SkipWhiteSpace(s: string, i: nat): (n: nat)
    requires i <= |s|
    ensures i <= n <= |s| && BlankBetween(s, i, n)
    ensures n < |s| ==> !IsWhiteSpace(s[n])
    decreases |s| - i
  {
    if i < |s| && IsWhiteSpace(s[i]) then SkipWhiteSpace(s, i + 1) else i
  }

  /** The start of the run of white space in `s` that ends at `j`, not going below `lo`. */
  function SkipWhiteSpaceBack(s: string, lo: nat, j: nat): (m: nat)
    requires lo <= j <= |s|
    ensures lo <= m <= j && BlankBetween(s, m, j)
    ensures m > lo ==> !IsWhiteSpace(s[m - 1])
  {
    if j > lo && IsWhiteSpace(s[j - 1]) then SkipWhiteSpaceBack(s, lo, j - 1) else j
  }

  /** `Trim()`: the result neither starts nor ends with white space. */
  function Trim(s: string): (r: string)
    ensures |r| <= |s|
    ensures r != [] ==> !IsWhiteSpace(r[0]) && !IsWhiteSpace(r[|r| - 1])
  {
    var n := SkipWhiteSpace(s, 0);
    s[n..SkipWhiteSpaceBack(s, n, |s|)]
  }

  /**
   The trimmed text is a slice of `s` whose margins on both sides are white
   space: only white space is removed, and only at the ends.
   */
  lemma TrimIsSlice(s: string)
    ensures var r := Trim(s);
            exists i | 0 <= i <= |s| - |r| ::
              s[i..i + |r|] == r && BlankBetween(s, 0, i) && BlankBetween(s, i + |r|, |s|)
  {
    var n := SkipWhiteSpace(s, 0);
    var m := SkipWhiteSpaceBack(s, n, |s|);
    assert s[n..n + (m - n)] == Trim(s);
  }

  /** The forward scan stops at the first character that is not white space. */
  lemma {:induction false} SkipWhiteSpaceFindsFirst(s: string, lo: nat, i: nat)
    requires lo <= i <= |s| && BlankBetween(s, lo, i)
    requires i < |s| ==> !IsWhiteSpace(s[i])
    ensures SkipWhiteSpace(s, lo) == i
    decreases i - lo
  {
    if lo < i {
      SkipWhiteSpaceFindsFirst(s, lo + 1, i);
    }
  }

  /** The backward scan stops behind the last character that is not white space. */
  lemma {:induction false} SkipWhiteSpaceBackFindsLast(s: string, lo: nat, j: nat, m: nat)
    requires lo <= m <= j <= |s| && BlankBetween(s, m, j)
    requires m > lo ==> !IsWhiteSpace(s[m - 1])
    ensures SkipWhiteSpaceBack(s, lo, j) == m
  {
    if m < j {
      SkipWhiteSpaceBackFindsLast(s, lo, j - 1, m);
    }
  }

  /**
   The converse of `TrimIsSlice`: any slice of `s` that has only white
   space on either side and no white space at its own ends is the trim.
   */
  lemma TrimUnique(s: string, i: nat, j: nat)
    requires i <= j <= |s| && BlankBetween(s, 0, i) && BlankBetween(s, j, |s|)
    requires i < j ==> !IsWhiteSpace(s[i]) && !IsWhiteSpace(s[j - 1])
    ensures Trim(s) == s[i..j]
  {
    if i < j {
      SkipWhiteSpaceFindsFirst(s, 0, i);
      SkipWhiteSpaceBackFindsLast(s, i, |s|, j);
    } else {
      assert BlankBetween(s, 0, |s|);
      SkipWhiteSpaceFindsFirst(s, 0, |s|);
    }
  }

  /** A string that neither starts nor ends with white space is its own trim. */
  lemma TrimOfTrimmed(s: string)
    requires s != [] ==> !IsWhiteSpace(s[0]) && !IsWhiteSpace(s[|s| - 1])
    ensures Trim(s) == s
  {
    assert s[0..|s|] == s;
  }

  /** Trimming twice is trimming once. */
  lemma TrimIdempotent(s: string)
    ensures Trim(Trim(s)) == Trim(s)
  {
    TrimOfTrimmed(Trim(s));
  }

  /** A leading character shifts the forward scan by one. */
  lemma {:induction false} SkipWhiteSpaceShift(c: char, s: string, i: nat)
    requires i <= |s|
    ensures SkipWhiteSpace([c] + s, i + 1) == SkipWhiteSpace(s, i) + 1
    decreases |s| - i
  {
    assert ([c] + s)[i + 1..] == s[i..];
    if i < |s| {
      assert ([c] + s)[i + 1] == s[i];
      if IsWhiteSpace(s[i]) {
        SkipWhiteSpaceShift(c, s, i + 1);
      }
    }
  }

  /** A leading character shifts the backward scan by one, as long as the scan stays after it. */
  lemma {:induction false} SkipWhiteSpaceBackShift(c: char, s: string, lo: nat, j: nat)
    requires lo <= j <= |s|
    ensures SkipWhiteSpaceBack([c] + s, lo + 1, j + 1) == SkipWhiteSpaceBack(s, lo, j) + 1
  {
    if j > lo {
      assert ([c] + s)[j] == s[j - 1];
      if IsWhiteSpace(s[j - 1]) {
        SkipWhiteSpaceBackShift(c, s, lo, j - 1);
      }
    }
  }

  /** Leading white space does not change the trim. */
  lemma TrimLeadingWhiteSpace(c: char, s: string)
    requires IsWhiteSpace(c)
    ensures Trim([c] + s) == Trim(s)
  {
    var cs := [c] + s;
    var n := SkipWhiteSpace(s, 0);
    var m := SkipWhiteSpaceBack(s, n, |s|);
    assert cs[0] == c;
    SkipWhiteSpaceShift(c, s, 0);
    assert SkipWhiteSpace(cs, 0) == n + 1;
    SkipWhiteSpaceBackShift(c, s, n, |s|);
    assert Trim(cs) == cs[n + 1..m + 1];
    SliceAfterHead(c, s, n, m);
  }

  /** Slicing behind a head element is slicing the tail. */
  lemma SliceAfterHead<T>(c: T, s: seq<T>, i: int, j: int)
    requires 0 <= i <= j <= |s|
    ensures ([c] + s)[i + 1..j + 1] == s[i..j]
  {
  }

  /** A string that is only white space trims to the empty string. */
  lemma TrimBlank(s: string)
    requires IsBlank(s)
    ensures Trim(s) == ""
  {
  }

  /** The pieces joined back together with `sep` between each two of them. */
  function Join(parts: seq<string>, sep: char): string
    requires |parts| >= 1
  {
    if |parts| == 1 then parts[0] else parts[0] + [sep] + Join(parts[1..], sep)
  }

  /**
   `Split(sep)`: the pieces between the separators. At least one piece, no
   piece contains the separator, and joining the pieces gives `s` back; these
   three facts determine the pieces uniquely.
   */
  function Split(s: string, sep: char): (parts: seq<string>)
    ensures |parts| >= 1
    ensures forall k :: 0 <= k < |parts| ==> sep !in parts[k]
    ensures Join(parts, sep) == s
  {
    if s == [] then
      [""]
    else if s[0] == sep then
      var rest := Split(s[1..], sep);
      assert s == [sep] + s[1..];
      [""] + rest
    else
      var rest := Split(s[1..], sep);
      var parts := [[s[0]] + rest[0]] + rest[1..];
      assert parts[1..] == rest[1..];
      assert Join(parts, sep) == s by {
        if |rest| > 1 {
          assert Join(rest, sep) == rest[0] + [sep] + Join(rest[1..], sep);
          assert Join(parts, sep) == ([s[0]] + rest[0]) + [sep] + Join(rest[1..], sep);
          assert s == [s[0]] + s[1..];
        } else {
          assert s == [s[0]] + s[1..];
        }
      }
      parts
  }

  /**
   `Split` yields more than one piece exactly when the separator occurs, and
   then the first piece is the text before the first separator.
   */
  lemma SplitFirstPiece(s: string, sep: char)
    ensures |Split(s, sep)| > 1 <==> sep in s
    ensures var head := Split(s, sep)[0];
            head <= s && sep !in head && (sep in s ==> |head| < |s| && s[|head|] == sep)
  {
    var parts := Split(s, sep);
    if |parts| == 1 {
      assert s == parts[0];
    } else {
      assert s == parts[0] + [sep] + Join(parts[1..], sep);
      assert s[|parts[0]|] == sep;
    }
  }

  /** A character absent from a prefix is absent at each position of it. */
  lemma NotInPrefix(s: string, c: char, n: int, k: int)
    requires 0 <= k < n <= |s| && c !in s[..n]
    ensures s[k] != c
  {
    assert s[..n][k] == s[k];
  }

  /** When `prefix` followed by `c` starts `s` and `c` is not in `prefix`, that `c` is the first in `s`. */
  lemma MarkedPrefix(s: string, prefix: string, c: char)
    requires prefix + [c] <= s && c !in prefix
    ensures |prefix| < |s| && s[|prefix|] == c && c !in s[..|prefix|]
  {
    assert s[..|prefix|] == (prefix + [c])[..|prefix|] == prefix;
    assert s[|prefix|] == (prefix + [c])[|prefix|];
  }

  /** A character has at most one first occurrence. */
  lemma FirstOccurrenceUnique(s: string, c: char, i: int, j: int)
    requires 0 <= i < |s| && 0 <= j < |s| && s[i] == c && s[j] == c
    requires c !in s[..i] && c !in s[..j]
    ensures i == j
  {
    if i < j {
      NotInPrefix(s, c, j, i);
    } else if j < i {
      NotInPrefix(s, c, i, j);
    }
  }

  /** `sub` occurs in `s` starting at index `i`. */
  predicate OccursAt(s: string, sub: string, i: int) {
    0 <= i && i + |sub| <= |s| && s[i..i + |sub|] == sub
  }

  /** Ordinal `String.Contains(string)`. */
  predicate Contains(s: string, sub: string) {
    exists i | 0 <= i <= |s| - |sub| :: OccursAt(s, sub, i)
  }

  /** A string that contains `sub` is at least as long as `sub`. */
  lemma ContainsLength(s: string, sub: string)
    requires Contains(s, sub)
    ensures |sub| <= |s|
  {
  }

  /** `String.Remove(0, count)`: throws when `count` runs past the end of `s`. */
  function RemovePrefix(s: string, count: nat): (r: Result<string>)
    ensures count <= |s| <==> r.Ok?
    ensures r.Ok? ==> s == s[..count] + r.value && |r.value| == |s| - count
  {
    if count <= |s| then Ok(s[count..]) else Err(ArgumentOutOfRange)
  }

  /** The upper-case or lower-case ASCII letter `c` mapped to lower case; any other character unchanged. */
  function AsciiLower(c: char): (l: char)
    ensures 'A' <= c <= 'Z' ==> 'a' <= l <= 'z' && l as int - c as int == 32
    ensures !('A' <= c <= 'Z') ==> l == c
  {
    if 'A' <= c <= 'Z' then (c as int + 32) as char else c
  }

  /** Every ASCII letter of `s` in lower case. */
  function ToLowerAscii(s: string): (r: string)
    ensures |r| == |s|
    ensures forall k :: 0 <= k < |s| ==> r[k] == AsciiLower(s[k])
  {
    seq(|s|, k requires 0 <= k < |s| => AsciiLower(s[k]))
  }

  predicate IsDigit(c: char) {
    '0' <= c <= '9'
  }

  predicate AllDigits(s: string) {
    forall k :: 0 <= k < |s| ==> IsDigit(s[k])
  }

  function DigitChar(d: nat): (c: char)
    requires d < 10
    ensures IsDigit(c) && c as int - '0' as int == d
  {
    ('0' as int + d) as char
  }

  function DigitValue(c: char): (d: nat)
    requires IsDigit(c)
    ensures d < 10 && DigitChar(d) == c
  {
    c as int - '0' as int
  }

  /** The value of a string of decimal digits, most significant first. */
  function DecimalValue(s: string): nat
    requires AllDigits(s)
  {
    if s == [] then 0 else DecimalValue(s[..|s| - 1]) * 10 + DigitValue(s[|s| - 1])
  }

  /**
   `n.ToString()` for a non-negative integer: a non-empty string of digits
   with no superfluous leading zero whose value is `n`.
   */
  function NatToDecimal(n: nat): (s: string)
    ensures |s| >= 1 && AllDigits(s)
    ensures s[0] == '0' ==> n == 0 && s == "0"
    ensures DecimalValue(s) == n
  {
    if n < 10 then
      [DigitChar(n)]
    else
      var prefix := NatToDecimal(n / 10);
      var s := prefix + [DigitChar(n % 10)];
      assert s[..|s| - 1] == prefix;
      s
  }

  /**
   `i.ToString()` with `-` as the negative sign: an optional `-` followed
   by the decimal digits of the magnitude.
   */
  function IntToDecimal(i: int): (s: string)
    ensures |s| >= 1
    ensures i < 0 <==> s[0] == '-'
    ensures AllDigits(if i < 0 then s[1..] else s)
  {
    if i < 0 then "-" + NatToDecimal(-i) else NatToDecimal(i)
  }

  /** Reads back a string produced by `IntToDecimal`. */
  function ParseDecimal(s: string): Option<int> {
    if s != [] && s[0] == '-' && |s| >= 2 && AllDigits(s[1..]) then
      var magnitude: int := DecimalValue(s[1..]);
      Some(-magnitude)
    else if s != [] && AllDigits(s) then Some(DecimalValue(s))
    else None
  }

  /** The decimal rendering of an integer is read back as the same integer. */
  lemma IntToDecimalRoundTrip(i: int)
    ensures ParseDecimal(IntToDecimal(i)) == Some(i)
  {
    if i < 0 {
      var d := NatToDecimal(-i);
      assert IntToDecimal(i)[1..] == d;
      assert d[0] != '-';
    } else {
      var d := NatToDecimal(i);
      assert d[0] != '-';
    }
  }

  /** So the decimal rendering is injective. */
  lemma IntToDecimalInjective(i: int, j: int)
    requires IntToDecimal(i) == IntToDecimal(j)
    ensures i == j
  {
    IntToDecimalRoundTrip(i);
    IntToDecimalRoundTrip(j);
  }
}

=== FILE: Traversal.dfy ===
/**
 Running a constructor that may throw over a list, in order, stopping at
 the first exception: either every element is built, or the exception of
 the first element whose construction throws is the outcome.
 */
module Traversal {
  import opened Results

  /** A list is its prefix followed by its suffix. */
  lemma SplitAt<T>(xs: seq<T>, n: int)
    requires 0 <= n <= |xs|
    ensures xs[..n] + xs[n..] == xs
  {
  }

  /** Builds every element of `xs` in order; the first exception aborts. */
  function Traverse<T, U>(make: T -> Result<U>, xs: seq<T>): (r: Result<seq<U>>)
    ensures r.Ok? ==> |r.value| == |xs|
    ensures r.Ok? ==> forall k :: 0 <= k < |xs| ==> make(xs[k]) == Ok(r.value[k])
  {
    if xs == [] then Ok([])
    else
      match Traverse(make, xs[..|xs| - 1])
      case Err(e) => Err(e)
      case Ok(built) =>
        match make(xs[|xs| - 1])
        case Err(e) => Err(e)
        case Ok(last) => Ok(built + [last])
  }

  /** Succeeds exactly when no element's construction throws. */
  lemma {:induction false} TraverseOkIffAllOk<T, U>(make: T -> Result<U>, xs: seq<T>)
    ensures Traverse(make, xs).Ok? <==> forall k :: 0 <= k < |xs| ==> make(xs[k]).Ok?
  {
    if xs != [] {
      var n := |xs| - 1;
      TraverseOkIffAllOk(make, xs[..n]);
      assert forall k :: 0 <= k < n ==> xs[..n][k] == xs[k];
    }
  }

  /** One more element: it is built after all earlier ones. */
  lemma TraverseStep<T, U>(make: T -> Result<U>, xs: seq<T>, x: T, built: seq<U>)
    requires Traverse(make, xs) == Ok(built)
    ensures Traverse(make, xs + [x])
         == (match make(x)
             case Err(e) => Err(e)
             case Ok(last) => Ok(built + [last]))
  {
    assert (xs + [x])[..|xs|] == xs;
  }

  /** Once a construction has thrown, later elements do not matter: the same exception is the outcome. */
  lemma {:induction false} TraverseAppendFails<T, U>(make: T -> Result<U>, xs: seq<T>, ys: seq<T>)
    requires Traverse(make, xs).Err?
    ensures Traverse(make, xs + ys) == Traverse(make, xs)
  {
    if ys != [] {
      var n := |ys| - 1;
      TraverseAppendFails(make, xs, ys[..n]);
      assert (xs + ys)[..|xs + ys| - 1] == xs + ys[..n];
    } else {
      assert xs + ys == xs;
    }
  }
}

=== FILE: VisualStudioError.dfy ===
/**
 A build diagnostic as the tool records it: the error level, the location
 (with the file name made relative to the solution directory), and the raw
 message split into a code and a description at the first `:`.
 */
module VisualStudioErrors {
  import opened Results
  import opened Text

  /**
   The error level, a plain integer cast of the level the IDE reports, so
   values other than the three named ones can occur.
   */
  datatype ErrorLevel = ErrorLevel(value: int)

  const Low := ErrorLevel(1)
  const Medium := ErrorLevel(2)
  const High := ErrorLevel(4)

  /** One entry of the IDE's error list, as the automation interface hands it over. */
  datatype ComErrorItem = ComErrorItem(
    errorLevel: int,
    description: string,
    fileName: string,
    line: int,
    column: int,
    project: string)

  datatype FileLocation = FileLocation(project: string, fileName: string, line: int, column: int)

  /**
   The directory the file name is made relative to: empty for a blank
   solution path, otherwise the directory part of the path (supplied by the
   caller; a missing directory is passed as the empty string).
   */
  function SolutionDirectory(solutionPath: string, directoryName: string): (dir: string)
    ensures IsBlank(solutionPath) ==> dir == ""
    ensures !IsBlank(solutionPath) ==> dir == directoryName
  {
    if IsBlank(solutionPath) then "" else directoryName
  }

  /** The two cases of the `FileLocation` constructor: strip the directory, or keep the name. */
  predicate StripsDirectory(fileName: string, solutionDirectory: string) {
    !IsBlank(solutionDirectory) && Contains(fileName, solutionDirectory)
  }

  /**
   The `FileLocation` constructor. When the solution directory is not blank
   and occurs anywhere in the file name, the first |dir| + 1 characters are
   removed (from index 0, whether or not the match is a prefix), which throws
   when the file name is no longer than the directory; otherwise the file
   name is kept. Project, line and column are copied.
   */
  function MakeFileLocation(project: string, fileName: string, line: int, column: int, solutionDirectory: string)
    : (r: Result<FileLocation>)
    ensures r.Ok? ==> r.value.project == project && r.value.line == line && r.value.column == column
    ensures !StripsDirectory(fileName, solutionDirectory) ==> r == Ok(FileLocation(project, fileName, line, column))
    ensures StripsDirectory(fileName, solutionDirectory) ==>
              if |solutionDirectory| < |fileName| then
                r.Ok? && r.value.fileName == fileName[|solutionDirectory| + 1..]
              else
                r == Err(ArgumentOutOfRange)
  {
    if StripsDirectory(fileName, solutionDirectory) then
      ContainsLength(fileName, solutionDirectory);
      match RemovePrefix(fileName, |solutionDirectory| + 1)
      case Ok(relative) => Ok(FileLocation(project, relative, line, column))
      case Err(e) => Err(e)
    else
      Ok(FileLocation(project, fileName, line, column))
  }

  /** The constructor throws only when the file name is the solution directory itself. */
  lemma FileLocationFailsOnlyOnDirectory(project: string, fileName: string, line: int, column: int, dir: string)
    ensures MakeFileLocation(project, fileName, line, column, dir).Err? <==>
              !IsBlank(dir) && fileName == dir
  {
    if !IsBlank(dir) && fileName == dir {
      assert OccursAt(fileName, dir, 0);
    }
    if StripsDirectory(fileName, dir) {
      ContainsLength(fileName, dir);
      if |fileName| == |dir| {
        var i :| 0 <= i <= |fileName| - |dir| && OccursAt(fileName, dir, i);
        assert i == 0;
        assert fileName[0..|dir|] == fileName;
      }
    }
  }

  /**
   For a file under the solution directory (the directory, a separator, then
   the rest) the stored name is exactly the path below the directory.
   */
  lemma FileLocationRelativePath(project: string, dir: string, separator: char, relative: string, line: int, column: int)
    requires !IsBlank(dir)
    ensures var r := MakeFileLocation(project, dir + [separator] + relative, line, column, dir);
            r.Ok? && r.value.fileName == relative
  {
    var fileName := dir + [separator] + relative;
    assert OccursAt(fileName, dir, 0) by {
      assert fileName[0..|dir|] == dir;
    }
    assert fileName[|dir| + 1..] == relative;
  }

  /**
   The match need not be a prefix: with directory "ab" the name "xxab.c"
   contains it, and the first three characters are cut, leaving "b.c".
   */
  lemma FileLocationStripsFromStart()
    ensures MakeFileLocation("p", "xxab.c", 1, 1, "ab") == Ok(FileLocation("p", "b.c", 1, 1))
  {
    assert !IsBlank("ab") by {
      assert !IsWhiteSpace("ab"[0]);
    }
    assert OccursAt("xxab.c", "ab", 2) by {
      assert "xxab.c"[2..4] == "ab";
    }
    assert "xxab.c"[3..] == "b.c";
  }

  datatype VisualStudioError = VisualStudioError(
    errorLevel: ErrorLevel,
    location: FileLocation,
    code: string,
    description: string)

  /**
   The code/description split of a raw message. With a `:` present, the code
   is the text before the first one and the description is everything after
   it, trimmed, later colons included; with none, the code is empty and the
   description is the raw text untouched.
   */
  function SplitDescription(raw: string): (r: (string, string))
    ensures ':' !in r.0
    ensures ':' in raw ==>
              r.0 + [':'] <= raw && r.1 == Trim(raw[|r.0| + 1..])
    ensures ':' !in raw ==> r.0 == "" && r.1 == raw
  {
    var pieces := Split(raw, ':');
    SplitFirstPiece(raw, ':');
    if |pieces| > 1 then
      var code := pieces[0];
      assert (code + [':']) == raw[..|code| + 1];
      match RemovePrefix(raw, |code| + 1)
      case Ok(rest) => (code, Trim(rest))
      case Err(_) => assert false; ("", raw)
    else
      ("", raw)
  }

  /** The code is the text before the FIRST colon: it never holds a colon itself. */
  lemma SplitDescriptionAtFirstColon(raw: string, i: nat)
    requires i < |raw| && raw[i] == ':' && ':' !in raw[..i]
    ensures SplitDescription(raw).0 == raw[..i]
    ensures SplitDescription(raw).1 == Trim(raw[i + 1..])
  {
    assert ':' in raw by {
      assert raw[i] == ':';
    }
    var code := SplitDescription(raw).0;
    MarkedPrefix(raw, code, ':');
    FirstOccurrenceUnique(raw, ':', i, |code|);
  }

  /** A message that begins with `:` has an empty code and the trimmed remainder as description. */
  lemma SplitDescriptionLeadingColon(rest: string)
    ensures SplitDescription(":" + rest) == ("", Trim(rest))
  {
    SplitDescriptionAtFirstColon(":" + rest, 0);
    assert (":" + rest)[1..] == rest;
  }

  /** The first colon of `code + ": " + text` is the one right after `code`. */
  lemma CodeOfCodedMessage(code: string, text: string)
    requires ':' !in code
    ensures SplitDescription(code + ": " + text).0 == code
    ensures SplitDescription(code + ": " + text).1 == Trim((code + ": " + text)[|code| + 1..])
  {
    var raw := code + ": " + text;
    assert raw[..|code|] == code;
    assert raw[|code|] == ':';
    SplitDescriptionAtFirstColon(raw, |code|);
  }

  /** What follows that colon trims to `text` when `text` has no white space at its ends. */
  lemma TextOfCodedMessage(code: string, text: string)
    requires text != [] ==> !IsWhiteSpace(text[0]) && !IsWhiteSpace(text[|text| - 1])
    ensures Trim((code + ": " + text)[|code| + 1..]) == text
  {
    var raw := code + ": " + text;
    assert raw[|code| + 1..] == [' '] + text;
    TrimLeadingWhiteSpace(' ', text);
    TrimOfTrimmed(text);
  }

  /**
   A message written as a code, `": "` and a text that neither starts nor
   ends with white space splits back into that code and that text.
   */
  lemma SplitDescriptionOfCodedMessage(code: string, text: string)
    requires ':' !in code
    requires text != [] ==> !IsWhiteSpace(text[0]) && !IsWhiteSpace(text[|text| - 1])
    ensures SplitDescription(code + ": " + text) == (code, text)
  {
    CodeOfCodedMessage(code, text);
    TextOfCodedMessage(code, text);
  }

  /**
   The `VisualStudioError` constructor: the level is cast, the location is
   built (which can throw), and the message is split.
   */
  function MakeError(item: ComErrorItem, solutionDirectory: string): (r: Result<VisualStudioError>)
    ensures r.Ok? <==> MakeFileLocation(item.project, item.fileName, item.line, item.column, solutionDirectory).Ok?
    ensures r.Ok? ==>
              && r.value.errorLevel.value == item.errorLevel
              && r.value.location == MakeFileLocation(item.project, item.fileName, item.line, item.column, solutionDirectory).value
              && (r.value.code, r.value.description) == SplitDescription(item.description)
  {
    var level := ErrorLevel(item.errorLevel);
    match MakeFileLocation(item.project, item.fileName, item.line, item.column, solutionDirectory)
    case Err(e) => Err(e)
    case Ok(location) =>
      var (code, description) := SplitDescription(item.description);
      Ok(VisualStudioError(level, location, code, description))
  }
}
